=== FILE: README.md ===
# pyminaret, modelled in Dafny

pyminaret is a small Linux command-line program that sends desktop
notifications at the adhān time of each daily prayer and, optionally, an
iqāma reminder a fixed number of minutes later. On start-up it fetches
today's timetable for a city from the Aladhan web service, retrying a few
times. It drops the six entries that are not prayers (Sunrise, Sunset,
Imsak, Midnight, Firstthird, Lastthird). Then it polls the clock every 30
seconds, forever, and notifies for every prayer whose `HH:MM` time equals
the current minute.

This project models that core as pure Dafny functions and proves what it
guarantees. The modules are:

- `PyDict`: the order-preserving string-keyed dict. It provides `get`,
  `pop(k, None)` and a one-pass filter used as the reference.
- `Json`: the decoded response and Python truthiness.
- `Clock`: the wall clock. It covers seconds since a midnight, sleeps
  that may wake late, and `strftime`/`strptime` with `"%H:%M"`.
- `Fetch`: `get_prayer_times`.
  - `Classify` reads what one attempt yields.
  - `Tries` is the recursive reference for the retry loop.
  - `GetPrayerTimes` is the loop as written, proved equal to `Tries`.
- `Scheduler`: the body of `main`'s `while True`.
  - `Visit` walks the timetable.
  - `Fire` handles one matching prayer.
  - `WaitFor` is the 15-second wait for the iqāma time.
  - `SweepOnce` is one pass of the loop, and `Run` is a bounded number of
    passes.
- `Program`: lines 88-91. It covers the startup notice, the argument
  shaping (`--gap` minus one, spaces in the country turned into `+`), and
  the whole session with the notifications it produces.

The effects are made explicit:
- A fetch is a list of `Step`s: requests, pauses and the failure notice.
  It ends in one of three ways: it returns timings, returns `None`, or
  exits.
- A sweep records every `Firing`: the prayer, the adhān time and the
  optional iqāma time.
- A session records the reason it halted.

Three behaviours of the code are easy to misread, and the model keeps them
as the code has them:

- A falsy body or `"data"` member does not count as a failed attempt. The
  `if` at line 22 just falls through: nothing is printed, nothing sleeps
  and nothing is notified, and the next attempt starts at once. After
  `max_retries` such attempts the function returns `None`, and `main` then
  fails on `None.items()` at line 55. The model has this as `Falsy`,
  `ReturnedNone` and `Halt.NoTimetable`.
- Filtering does not leave exactly five prayers. The code removes six
  named keys and keeps every other key the service sends, and the model
  keeps them too (`FilterTimingsSpec`). The sweep then treats them like
  prayers: an extra key whose value is truthy but not `HH:MM` text crashes
  the sweep (falsy values are skipped at line 56).
- `--iqama` is declared `store_true` with `default=True`, so it is always
  true. The model still takes it as a parameter.

## Model

| member | source | states |
|---|---|---|
| PyDict.Get | main.py:22 | `d.get(k)` is present exactly when `k` is a key. The value it gives is one stored under `k`. When keys are distinct, it is the value of every entry with that key. |
| PyDict.Pop | main.py:27 | `d.pop(k, None)` with its result discarded: removes the entry under `k` and keeps the order of the rest. Its contract is carried by `WithoutAfterPop` and `PopAllIsWithout`. |
| PyDict.PopAll | main.py:25-27 | The `for key in ...: pop(key, None)` loop. `PopAllIsWithout` states what it computes. |
| PyDict.PopAllIsWithout | main.py:25-27 | Popping the keys one after another, each with a `None` default, equals one filtering pass that drops the set of those keys. |
| PyDict.WithoutKeys | main.py:25-27 | After the filter, the keys are the old keys minus the dropped ones. |
| PyDict.WithoutValues | main.py:25-27 | After the filter, every key not dropped still gives the value it gave before, including None for an absent key. |
| PyDict.WithoutKeepsEntries | main.py:25-27 | The filter never lengthens the dict. It keeps exactly the entries whose key is not dropped. |
| PyDict.WithoutKeepsDistinct | main.py:25-27 | Filtering a dict with distinct keys leaves the keys distinct. |
| Json.Truthy | main.py:22 | Python's `bool()` of a decoded value: None, False, 0 and empty text, lists and dicts are false. It is used by the tests at lines 22 and 56; `Classify` and `SlotOf` state its effect. |
| Json.Member | main.py:23 | `v[key]` is defined exactly when `v` is a dict that has `key`. |
| Json.MemberWellFormed | main.py:23 | A member of a decoded JSON value, where no dict repeats a key, is itself such a value. |
| Fetch.FilterTimings | main.py:25-27 | Pops the six non-prayer keys from the timings. `FilterTimingsSpec` and `FivePrayersSurvive` carry its contract. |
| Fetch.FilterTimingsSpec | main.py:25-28 | The returned timings lose exactly the six non-prayer keys. Every other key, including unknown extra ones, keeps its value and its place. |
| Fetch.FivePrayersSurvive | main.py:25-28 | On the service's eleven-key timings object, filtering leaves Fajr, Dhuhr, Asr, Maghrib and Isha with their values, in that order. |
| Fetch.Classify | main.py:20-27 | An attempt yields timings iff the body has a dict at `data.timings`. It falls through iff the body or its `data` is falsy. Every other body raises, and so does an unreachable service. |
| Fetch.Tries | main.py:18-38 | The reference definition of the retry loop: the steps and the end of a fetch with `left` attempts left. Its properties are `TriesEnd`, `TriesRequests`, `TriesStepsByAttempt`, `TriesPauses`, `TriesReturnsFirstSuccess` and `ReturnedFromAttempt`. `GetPrayerTimes` is proved equal to it. |
| Fetch.GetPrayerTimes | main.py:18-38 | The `for attempt in range(max_retries)` loop makes the same requests, pauses and failure notice as the reference `Tries`, and ends the same way. |
| Fetch.TriesEnd | main.py:18-38 | The fetch returns timings iff some attempt within the budget succeeds. It exits iff none succeeds and the last attempt raised. It returns None iff none succeeds and the last attempt was falsy, or the budget is not positive. |
| Fetch.TriesReturnsFirstSuccess | main.py:18-28 | With attempt `first` the first success, the fetch returns that attempt's filtered timings after exactly `first + 1` requests, and no step comes after the last request. |
| Fetch.TriesRequests | main.py:18-38 | There are at most `max_retries` requests, and at least one when the budget is positive. When no attempt succeeds, there are exactly `max_retries` requests, because the loop leaves early only by returning timings. A failure notice is sent exactly once when the fetch exits, and never otherwise. |
| Fetch.TriesPauseLength | main.py:31-33 | Every pause lasts `wait_time`. |
| Fetch.TriesPauses | main.py:29-33 | The number of pauses equals the number of raised attempts among all attempts made except the last. |
| Fetch.TriesStepsByAttempt | main.py:18-38 | Attempt by attempt, the steps are each attempt's request, followed by a pause exactly when that attempt raised and was not the last allowed. When the fetch exits, the failure notice follows them. |
| Fetch.TriesByAttempt | main.py:18-38 | The same step sequence from any attempt `i` on, with `max_retries - i` attempts left, as the loop sees it on each turn. |
| Fetch.TimingsWellFormed | main.py:23 | The dict at `data["data"]["timings"]` of a decoded response has distinct keys. |
| Fetch.AlwaysFailing | main.py:18-38 | A source that always raises gives request, pause, …, request, failure notice, with `max_retries` requests, and then exits. |
| Fetch.SilentFallThrough | main.py:18-22 | A source that always answers with falsy data gets `max_retries` requests and nothing else, and the fetch returns None. |
| Fetch.RecoversAfterFailures | main.py:18-33 | A source that raises `f` times and then succeeds gives `f` request-pause pairs and one more request, and returns the success's filtered timings. |
| Fetch.ReturnedFromAttempt | main.py:23-28 | Returned timings are the filtered timings of one of the attempts within the budget. |
| Clock.Sleep | main.py:62-71 | `time.sleep(s)`, as at lines 33, 62, 69 and 71: at least `s` seconds pass, exactly `s` once no late wake-up is pending, and each sleep uses up one late wake-up. |
| Clock.Format | main.py:54 | `strftime("%H:%M")` of a minute of the day: five characters with the colon at index 2. `ParseFormat` states that parsing gives the minute back. |
| Clock.Parse | main.py:57-58 | `strptime(text, "%H:%M")`: a minute of the day when the text parses, and None where `strptime` raises. Its contract is carried by `ParseTwoDigitFields`, `ParseOneDigitHour`, `ParseShape` and `ParseFormat`. |
| Clock.MinuteOfDay | main.py:54 | The minute shown by `strftime("%H:%M")` is the whole minutes of the time of day. |
| Clock.SecondOfDay | main.py:68 | `datetime.now().time()` as seconds since midnight, always less than a day. `MinuteOfDay` and `WaitFor` build on it. |
| Clock.ParseFormat | main.py:54-58 | Parsing what `strftime("%H:%M")` printed gives back the same minute, so line 58 never raises. |
| Clock.ParseTwoDigitFields | main.py:57 | Two-digit `HH:MM` text parses iff the hour is at most 23 and the minute at most 59, and then means `60·HH + MM`. |
| Clock.ParseOneDigitHour | main.py:57 | A one-digit hour such as `5:07` is accepted too. |
| Clock.ParseShape | main.py:57 | Any text that parses has 3 to 5 characters and exactly one colon, after one or two leading digits. Every other character is a digit. |
| Scheduler.Reminder | main.py:66 | The reminder is the prayer time plus the gap, modulo one day. It equals the plain sum when that sum stays within the day, and the sum less a day when it crosses midnight. |
| Scheduler.WaitFor | main.py:68-69 | The wait ends at or after the reminder time of day, taking at least 15 s per tick. It takes no tick and leaves the clock unchanged exactly when that time is already reached. |
| Scheduler.WaitIsPrompt | main.py:68-69 | With exact sleeps the wait takes the fewest 15 s ticks that reach the reminder. It stays within the day and ends less than a tick after the reminder. |
| Scheduler.WrappedReminderIsImmediate | main.py:66-69 | From a clock whose time of day is still at or after the prayer minute, a reminder that wraps past midnight is already reached, so the wait takes no tick. After the cooldown this holds unless the cooldown itself crossed midnight; `MidnightPrayerWaits` shows that case. |
| Scheduler.MidnightPrayerWaits | main.py:61-70 | For a prayer at 23:59 with a 14-minute gap, the reminder wraps to 00:13. The cooldown ends at 00:00:00, before it, so with no late wake-ups the iqāma is sent at exactly 00:13:00, 14 minutes after the adhān. |
| Scheduler.SlotOf | main.py:56-57 | A timetable value is skipped iff it is falsy. It is a minute of the day iff it is text that `strptime` accepts. Every other value makes `strptime` raise. |
| Scheduler.Fire | main.py:61-70 | The adhān is sent at once, followed by at least 60 s of cooldown. An iqāma notice comes iff reminders are on, and it is sent at or after the reminder time of day. |
| Scheduler.ReminderFor | main.py:64-66 | The reminder a firing waits for. Its effect is stated by `VisitTiming`, `SweepTiming` and `SweepReminder`: an iqāma notice is sent iff reminders are on, and then at or after `Reminder(minute, gap)`. |
| Scheduler.Visit | main.py:55-70 | The walk over the timetable in one sweep. `VisitTiming`, `VisitCrashRule`, `VisitFiresOnlyMatches`, `VisitFiresAllMatches` and `VisitFiresEachOnce` carry its contract. |
| Scheduler.VisitTiming | main.py:55-70 | Each firing takes at least the cooldown, and the first is sent immediately. Each has an iqāma notice iff reminders are on, never earlier than the cooldown after its adhān nor before the reminder time. Consecutive firings do not overlap. |
| Scheduler.VisitCrashRule | main.py:55-58 | A sweep crashes exactly when some timetable value is invalid. Empty values are skipped. |
| Scheduler.VisitFiresOnlyMatches | main.py:55-61 | Every firing belongs to a timetable entry whose time equals the minute read at line 54. |
| Scheduler.VisitFiresAllMatches | main.py:55-61 | In a sweep that does not crash, every entry whose time equals the minute read fires. |
| Scheduler.VisitFiresEachOnce | main.py:55-61 | With distinct keys, no prayer fires twice within one sweep. |
| Scheduler.SweepOnce | main.py:54-71 | A sweep starts from the clock it read. A sweep that does not crash ends at least 30 s plus 60 s per firing later. |
| Scheduler.SweepMatchRule | main.py:54-61 | The match rule for a whole sweep, in terms of the minute read: crash iff some value is invalid, fire only and all matching entries, each prayer at most once. |
| Scheduler.RunCrashRule | main.py:53-58 | A run of sweeps ends in a crash iff it has fuel for one sweep and the timetable holds an entry `strptime` rejects; otherwise it uses up its fuel. |
| Scheduler.Fires | main.py:56-60 | Whether an entry fires at the minute read: a falsy value never does, and a parsed one does iff its minute equals the minute read. Its meaning for a whole sweep is stated by `SweepMatchRule`. |
| Scheduler.SweepTiming | main.py:62-70 | Within a sweep the firings are spaced. Iqāma notices occur iff reminders are on, each at least 60 s after its adhān and at or after the reminder time. |
| Scheduler.Run | main.py:53-71 | At most `fuel` sweeps are made. The run stops early only on a crash, and only its last sweep can crash. |
| Scheduler.RunIsSweeps | main.py:53-71 | The run starts from the given clock, and each of its passes is the sweep computed from that pass's start clock. |
| Scheduler.RunIsAdvancing | main.py:62-71 | Each pass starts where the previous one left the clock. It starts at least 30 s later, and at least 90 s later after a pass that fired. |
| Scheduler.AdvancingSpreads | main.py:62-71 | Along the run, readings grow by at least 30 s per pass, and by at least 90 s after a pass that fired. |
| Scheduler.NoDoubleFire | main.py:53-71 | With distinct keys, a prayer fires at most once per sweep. Any sweep after a firing one reads a later minute, so the same prayer never fires twice for one minute. |
| Program.ConfigFromArgs | main.py:91 | `main` is given `args.iqama` and `args.gap - 1`. `SweepReminder` and `SessionReminders` state what this does to the iqāma time. |
| Program.QueryCountry | main.py:91 | `country.replace(" ", "+")` keeps the length, turns every space into `+`, and keeps every other character. |
| Program.QueryCountryRoundTrip | main.py:91 | For a name without `+`, turning `+` back into spaces recovers the country: the replacement loses nothing. |
| Program.SweepReminder | main.py:64-70 | In one sweep run with `--gap g`, a firing has an iqāma notice exactly when `--iqama` is set. That notice is sent at or after the second of the day `g - 1` minutes past the minute the sweep read, wrapping at midnight. |
| Program.SessionReminders | main.py:64-70 | The same holds for every firing of every sweep of a whole session: each firing has an iqāma notice exactly when `--iqama` is set, sent no earlier than `g - 1` minutes past its sweep's minute, wrapping at midnight. The `g - 1` comes from line 91. |
| Program.DhuhrExample | main.py:60-70 | With `--gap 15`, a Dhuhr at 12:30 read at 12:30:00 fires once at 12:30:00, and its iqāma follows at exactly 12:44:00. |
| Program.AfterPauses | main.py:33 | The fetch's pauses never move the clock back, and a clock with no late wake-ups left keeps none. |
| Program.PausesAdvance | main.py:33 | Each pause of `w` seconds moves the clock forward by at least `w`, so the loop starts at least `w` times the number of such pauses after the fetch began. |
| Program.Pyminaret | main.py:88-91 | One run of the program: the startup notice unless `-n`, the fetch with its defaults, then the sweeps over the returned timings with the gap minus one. What a session promises is stated by `SessionCrashRule`, `NoticesOfFetch`, `SessionNoDoubleFire` and `SessionReminders`. |
| Program.SessionCrashRule | main.py:50-58 | A session ends in a crash iff the fetch returned timings, at least one sweep ran, and some timetable entry is truthy but not `HH:MM` text. |
| Program.NoticesOfFetch | main.py:36-38 | The API error notice is sent exactly once when the fetch exits, and then nothing follows the startup notice. When the fetch returns None, only the startup notice is sent. |
| Program.IqamaFollowsAdhan | main.py:61-70 | In the notification stream of any list of firings, every iqāma notice directly follows the adhān notice of the same firing. |
| Program.FiringNotices | main.py:61-70 | The adhān and iqāma notices of a list of firings, in order; never the startup or API error notice. `IqamaFollowsAdhan` states their order. |
| Program.SweepNotices | main.py:53-71 | The notices of every sweep in turn; never the startup or API error notice. |
| Program.Notices | main.py:36-90 | Everything a session sends: the startup notice appears iff `-n` was not given, and the API error notice appears iff the fetch gave up after its last raised attempt. `NoticesOfFetch` and `IqamaFollowsAdhan` state its order. |
| Program.NoIqamaWhenDisabled | main.py:64 | With reminders off, only adhān notices are sent, one per firing. |
| Program.TimetableKeysDistinct | main.py:25-28 | The filtered timetable keeps the distinct keys of the decoded dict. |
| Program.SessionNoDoubleFire | main.py:50-71 | Over a whole session whose responses are well-formed decoded JSON, no prayer fires twice in a sweep, and each sweep after a firing one reads a later minute. |

## Left out

- The network, the URL and the date string in it (lines 14-16, 20-21) are left out. The response is the `attempts` parameter: each attempt is either unreachable or a decoded JSON body. HTTP errors and `json.loads` errors count as unreachable.
- The text of notifications, `notify-send`, `icon_path` (line 10), `capitalize()` and every `print` are left out. Notifications are the `Notice` values, without their wording.
- `send_notification` (lines 41-47) is left out except as the notice it produces: its two message formats differ only in text.
- `argparse` (lines 74-86) is left out. Its parsed values are parameters; `--iqama` is always true in the program but is taken as a parameter.
- Real time is left out. The clock counts seconds from a midnight with no dates, time zones or daylight-saving changes, and a day is always 86400 s. Late wake-ups are the finite `lag` list.
- Sub-second time is left out. Line 68 compares times with microseconds; the model compares whole seconds.
- `strptime` accepting non-ASCII Unicode digits is left out. Only ASCII digits are accepted.
- JSON numbers are modelled as integers. Floats would only matter for truthiness, where `0.0` behaves like `0`.
- `wait_time` is a natural number. A negative value would make `time.sleep` raise, and only the default 5 is used.
- Scheduler.Run: the endless `while True` is modelled as at most `fuel` sweeps. Nothing is claimed about sweeps past the fuel.
- Scheduler.SweepOnce: line 58 parses the current-time string again for every truthy timetable entry. The model uses the minute read at line 54 directly. This changes nothing, because `Clock.ParseFormat` proves that parse always succeeds and gives back that minute. Timetable values are classified once (`SlotOf`), since `strptime` gives the same answer for the same text every time.
- Failures of `notify-send` itself (a missing binary makes `subprocess.run` raise) are left out.
- Scheduler.Reminder: does not model the `OverflowError` that line 66 raises when adding the gap carries the datetime outside years 1 to 9999. That takes a `--gap` of billions of minutes. The model's clock has no calendar date to say where that bound lies, so `Reminder` is defined for every gap. Apart from this, the only exception a sweep raises in the model is `strptime`'s at line 57.

=== FILE: clock.dfy ===
/** The wall clock as the scheduler sees it, and the `"%H:%M"` text the
    program formats and parses (main.py lines 54, 57-58).

    Time is a count of seconds since the midnight that starts the run. The
    only thing that moves it is a sleep, which lasts its nominal length plus
    an extra delay taken from `lag`; once `lag` is used up sleeps are exact.
    Any finite run uses finitely many sleeps, so a finite `lag` stands for any
    pattern of late wake-ups. */
module Clock {
  import opened Wrappers

  const SecondsPerDay: nat := 86400
  const MinutesPerDay: nat := 1440

  datatype Clock = Clock(now: nat, lag: seq<nat>)

  /** `time.sleep(seconds)`: at least `seconds` pass, one extra delay is used. */
  function Sleep(c: Clock, seconds: nat): (r: Clock)
    ensures r.now >= c.now + seconds
    ensures c.lag == [] ==> r.lag == [] && r.now == c.now + seconds
    ensures c.lag != [] ==> r.lag == c.lag[1..]
  {
    if c.lag == [] then Clock(c.now + seconds, [])
    else Clock(c.now + seconds + c.lag[0], c.lag[1..])
  }

  /** `datetime.now().time()` to the second. */
  function SecondOfDay(t: nat): (s: nat)
    ensures s < SecondsPerDay
  {
    t % SecondsPerDay
  }

  /** The minute of the day that `strftime("%H:%M")` shows. */
  function MinuteOfDay(t: nat): (m: nat)
    ensures m < MinutesPerDay
    ensures m * 60 <= SecondOfDay(t) < m * 60 + 60
  {
    SecondOfDay(t) / 60
  }

  predicate IsDigit(ch: char)
  {
    '0' <= ch <= '9'
  }

  function DigitChar(d: nat): (ch: char)
    requires d < 10
    ensures IsDigit(ch)
  {
    ('0' as int + d) as char
  }

  function DigitValue(ch: char): (d: nat)
    requires IsDigit(ch)
    ensures d < 10
  {
    (ch as int - '0' as int) as nat
  }

  /** A number below 100 written with two digits, as `%H` and `%M` print it. */
  function TwoDigits(n: nat): (s: string)
    requires n < 100
    ensures |s| == 2 && IsDigit(s[0]) && IsDigit(s[1])
  {
    [DigitChar(n / 10), DigitChar(n % 10)]
  }

  /** A field of one or two ASCII digits, as `%H` and `%M` accept it. */
  function Field(s: string): (r: Option<nat>)
    ensures r.Some? ==> r.value < 100
  {
    if |s| == 1 && IsDigit(s[0]) then Some(DigitValue(s[0]))
    else if |s| == 2 && IsDigit(s[0]) && IsDigit(s[1]) then Some(10 * DigitValue(s[0]) + DigitValue(s[1]))
    else None
  }

  /** `strftime("%H:%M")` of a minute of the day. */
  function Format(m: nat): (s: string)
    requires m < MinutesPerDay
    ensures |s| == 5 && s[2] == ':'
  {
    TwoDigits(m / 60) + ":" + TwoDigits(m % 60)
  }

  /** `strptime(s, "%H:%M")` reduced to the minute of the day, or None where
      it raises ValueError: an hour of one or two digits up to 23, a colon,
      a minute of one or two digits up to 59, and nothing else. */
  function Parse(s: string): (r: Option<nat>)
    ensures r.Some? ==> r.value < MinutesPerDay
  {
    var colon := if 2 <= |s| && s[1] == ':' then 1 else if 3 <= |s| && s[2] == ':' then 2 else 0;
    if colon == 0 then None
    else
      var hour := Field(s[..colon]);
      var minute := Field(s[colon + 1..]);
      if hour.Some? && minute.Some? && hour.value < 24 && minute.value < 60
      then Some(hour.value * 60 + minute.value)
      else None
  }

  lemma TwoDigitsValue(n: nat)
    requires n < 100
    ensures Field(TwoDigits(n)) == Some(n)
  {
  }

  /** Parsing what the clock printed gives back the minute: the parse of the
      current time at line 58 never raises. */
  lemma ParseFormat(m: nat)
    requires m < MinutesPerDay
    ensures Parse(Format(m)) == Some(m)
  {
    var s := Format(m);
    assert s[..2] == TwoDigits(m / 60);
    assert s[3..] == TwoDigits(m % 60);
    TwoDigitsValue(m / 60);
    TwoDigitsValue(m % 60);
  }

  /** Two-digit `HH:MM` text is accepted exactly when the hour is at most 23
      and the minute at most 59, and then means that minute of the day. */
  lemma ParseTwoDigitFields(h: nat, m: nat)
    requires h < 100 && m < 100
    ensures Parse(TwoDigits(h) + ":" + TwoDigits(m)) ==
      if h < 24 && m < 60 then Some(h * 60 + m) else None
  {
    var s := TwoDigits(h) + ":" + TwoDigits(m);
    assert s[..2] == TwoDigits(h);
    assert s[3..] == TwoDigits(m);
    TwoDigitsValue(h);
    TwoDigitsValue(m);
  }

  /** A one-digit hour is accepted too, as `strptime` does. */
  lemma ParseOneDigitHour(h: nat, m: nat)
    requires h < 10 && m < 60
    ensures Parse([DigitChar(h)] + ":" + TwoDigits(m)) == Some(h * 60 + m)
  {
    var s := [DigitChar(h)] + ":" + TwoDigits(m);
    assert s[..1] == [DigitChar(h)];
    assert s[2..] == TwoDigits(m);
    TwoDigitsValue(m);
  }

  /** Text that parses has one of the accepted shapes: three to five
      characters, a colon after one or two leading digits, digits elsewhere. */
  lemma ParseShape(s: string)
    requires Parse(s).Some?
    ensures 3 <= |s| <= 5
    ensures s[1] == ':' || s[2] == ':'
    ensures forall i :: 0 <= i < |s| ==> IsDigit(s[i]) || s[i] == ':'
    ensures multiset(s)[':'] == 1
  {
    var c := if s[1] == ':' then 1 else 2;
    var hour, minute := s[..c], s[c + 1..];
    FieldDigits(hour);
    FieldDigits(minute);
    assert s == hour + [':'] + minute;
    assert multiset(s) == multiset(hour) + multiset{':'} + multiset(minute);
    forall i | 0 <= i < |s| ensures IsDigit(s[i]) || s[i] == ':' {
      if i < c {
        assert s[i] == hour[i];
      } else if i > c {
        assert s[i] == minute[i - c - 1];
      }
    }
  }

  /** A field that is accepted is one or two digits, so holds no colon. */
  lemma FieldDigits(s: string)
    requires Field(s).Some?
    ensures 1 <= |s| <= 2
    ensures forall i :: 0 <= i < |s| ==> IsDigit(s[i])
    ensures multiset(s)[':'] == 0
  {
    assert ':' !in s;
  }
}

=== FILE: fetch.dfy ===
/** `get_prayer_times` (main.py lines 13-38): up to `max_retries` requests
    for today's timetable, a fixed pause after each failed attempt but the
    last, and one failure notification followed by `SystemExit` when the last
    attempt fails. The request itself is not modelled: each attempt's result
    is given as an `Attempt`. */
module Fetch {
  import opened Wrappers
  import opened PyDict
  import opened Json

  /** The keys the program drops from the timings before returning them. */
  const Excluded: seq<string> := ["Sunrise", "Sunset", "Imsak", "Midnight", "Firstthird", "Lastthird"]

  function ExcludedSet(): (r: set<string>)
    ensures r == set k | k in Excluded
  {
    {"Sunrise", "Sunset", "Imsak", "Midnight", "Firstthird", "Lastthird"}
  }

  /** Lines 25-27: pop each excluded key, absent ones included. */
  function FilterTimings(t: Dict<Json>): Dict<Json>
  {
    PopAll(t, Excluded)
  }

  /** The filter removes exactly the six excluded keys: every other key
      survives with its value, extra keys included, in the original order, and
      an excluded key that is absent changes nothing. */
  lemma FilterTimingsSpec(t: Dict<Json>)
    ensures Keys(FilterTimings(t)) == Keys(t) - ExcludedSet()
    ensures forall k :: k !in ExcludedSet() ==> Get(FilterTimings(t), k) == Get(t, k)
    ensures forall e :: e in FilterTimings(t) <==> e in t && e.0 !in ExcludedSet()
    ensures FilterTimings(t) == Without(t, ExcludedSet())
  {
    PopAllIsWithout(t, Excluded);
    WithoutKeys(t, ExcludedSet());
    WithoutValues(t, ExcludedSet());
    WithoutKeepsEntries(t, ExcludedSet());
  }

  /** What one attempt yields: `urlopen`, the HTTP status or `json.loads`
      raised, or the body was decoded to a value. */
  datatype Attempt = Unreachable | Body(json: Json)

  /** How the loop body treats an attempt: it raised (caught at line 29), it
      found falsy `data` or `data["data"]` and did nothing, or it has a
      timings dict to filter and return. */
  datatype Outcome = Raised | Falsy | Timings(t: Dict<Json>)

  /** The dict at `data["data"]["timings"]`, when there is one. */
  function TimingsAt(v: Json): Option<Dict<Json>>
  {
    match Member(v, "data")
    case None => None
    case Some(inner) =>
      var timings := Member(inner, "timings");
      if timings.Some? && timings.value.JObj? then Some(timings.value.fields) else None
  }

  /** The timings dict of a well-formed body has distinct keys. */
  lemma TimingsWellFormed(v: Json)
    requires WellFormed(v) && TimingsAt(v).Some?
    ensures DistinctKeys(TimingsAt(v).value)
  {
    MemberWellFormed(v, "data");
    MemberWellFormed(Member(v, "data").value, "timings");
  }

  /** Lines 20-27 for one attempt. A truthy non-dict body has no `.get`, a
      truthy non-dict `data["data"]` cannot be indexed by a string, a missing
      `"timings"` is a KeyError and a non-dict timings value has no
      two-argument `.pop`: all four raise. */
  function Classify(a: Attempt): (r: Outcome)
    ensures r.Timings? <==> a.Body? && TimingsAt(a.json).Some?
    ensures r.Timings? ==> Some(r.t) == TimingsAt(a.json)
    ensures r == Falsy <==>
      a.Body? && (!Truthy(a.json)
                  || (a.json.JObj? && (Member(a.json, "data").None? || !Truthy(Member(a.json, "data").value))))
  {
    match a
    case Unreachable => Raised
    case Body(data) =>
      if !Truthy(data) then Falsy
      else if !data.JObj? then Raised
      else match Get(data.fields, "data")
        case None => Falsy
        case Some(inner) =>
          if !Truthy(inner) then Falsy
          else if !inner.JObj? then Raised
          else
            var timings := Get(inner.fields, "timings");
            if timings.Some? && timings.value.JObj? then Timings(timings.value.fields) else Raised
  }

  /** One event of the fetch: a request, a `time.sleep(wait_time)`, or the
      `notify-send` call announcing the API error. */
  datatype Step = Request | Pause(seconds: nat) | FailureNotice

  /** How `get_prayer_times` ends: it returns the filtered timings, it falls
      off the loop and returns None, or it raises SystemExit. */
  datatype End = Returned(timings: Dict<Json>) | ReturnedNone | Exit

  datatype FetchRun = FetchRun(steps: seq<Step>, end: End)

  /** The attempts still to come, `outcomes` holding their results and `left`
      being `max_retries - attempt`. Reference definition of the loop. */
  function Tries(left: int, waitTime: nat, outcomes: seq<Outcome>): FetchRun
    requires left <= |outcomes|
    decreases |outcomes|
  {
    if left <= 0 then FetchRun([], ReturnedNone)
    else match outcomes[0]
      case Timings(t) => FetchRun([Request], Returned(FilterTimings(t)))
      case Falsy =>
        var rest := Tries(left - 1, waitTime, outcomes[1..]);
        FetchRun([Request] + rest.steps, rest.end)
      case Raised =>
        if left > 1 then
          var rest := Tries(left - 1, waitTime, outcomes[1..]);
          FetchRun([Request, Pause(waitTime)] + rest.steps, rest.end)
        else FetchRun([Request, FailureNotice], Exit)
  }

  /** The outcome of each attempt. */
  function ClassifyAll(attempts: seq<Attempt>): (r: seq<Outcome>)
    ensures |r| == |attempts|
    ensures forall i :: 0 <= i < |attempts| ==> r[i] == Classify(attempts[i])
  {
    seq(|attempts|, i requires 0 <= i < |attempts| => Classify(attempts[i]))
  }

  /** The number of attempts among `outcomes` that raised. */
  function CountRaised(outcomes: seq<Outcome>): nat
  {
    if |outcomes| == 0 then 0
    else (if outcomes[0] == Raised then 1 else 0) + CountRaised(outcomes[1..])
  }

  /** One turn of the loop: what the next attempt contributes, and what is
      left to the attempts after it. */
  lemma TriesUnfold(left: int, waitTime: nat, outcomes: seq<Outcome>)
    requires 0 < left <= |outcomes|
    ensures var r := Tries(left, waitTime, outcomes);
      var rest := Tries(left - 1, waitTime, outcomes[1..]);
      match outcomes[0]
      case Timings(t) => r == FetchRun([Request], Returned(FilterTimings(t)))
      case Falsy => r.steps == [Request] + rest.steps && r.end == rest.end
      case Raised =>
        if left > 1 then r.steps == [Request, Pause(waitTime)] + rest.steps && r.end == rest.end
        else r == FetchRun([Request, FailureNotice], Exit)
  {
  }

  /** The loop's bookkeeping: `done` are the steps taken so far, and the
      next attempt's steps are appended to them as the loop body does. */
  lemma TriesAppend(done: seq<Step>, left: int, waitTime: nat, outcomes: seq<Outcome>)
    requires 0 < left <= |outcomes|
    ensures var r := Tries(left, waitTime, outcomes);
      var rest := Tries(left - 1, waitTime, outcomes[1..]);
      match outcomes[0]
      case Timings(t) => done + r.steps == done + [Request] && r.end == Returned(FilterTimings(t))
      case Falsy => done + r.steps == (done + [Request]) + rest.steps && r.end == rest.end
      case Raised =>
        if left > 1 then done + r.steps == (done + [Request] + [Pause(waitTime)]) + rest.steps && r.end == rest.end
        else done + r.steps == done + [Request] + [FailureNotice] && r.end == Exit
  {
    TriesUnfold(left, waitTime, outcomes);
  }

  /** The loop of lines 18-38 as written, over the given attempt results. */
  method GetPrayerTimes(maxRetries: int, waitTime: nat, attempts: seq<Attempt>) returns (steps: seq<Step>, end: End)
    requires maxRetries <= |attempts|
    ensures FetchRun(steps, end) == Tries(maxRetries, waitTime, ClassifyAll(attempts))
  {
    var classified := ClassifyAll(attempts);
    ghost var whole := Tries(maxRetries, waitTime, classified);
    steps := [];
    var attempt := 0;
    while attempt < maxRetries
      invariant 0 <= attempt <= |attempts|
      invariant maxRetries > 0 ==> attempt <= maxRetries
      invariant steps + Tries(maxRetries - attempt, waitTime, classified[attempt..]).steps == whole.steps
      invariant Tries(maxRetries - attempt, waitTime, classified[attempt..]).end == whole.end
    {
      TriesAppend(steps, maxRetries - attempt, waitTime, classified[attempt..]);
      assert classified[attempt..][0] == classified[attempt];
      assert classified[attempt..][1..] == classified[attempt + 1..];
      steps := steps + [Request];
      match classified[attempt] {
        case Timings(t) =>
          end := Returned(FilterTimings(t));
          return;
        case Falsy =>
        case Raised =>
          if attempt < maxRetries - 1 {
            steps := steps + [Pause(waitTime)];
          } else {
            steps := steps + [FailureNotice];
            end := Exit;
            return;
          }
      }
      attempt := attempt + 1;
    }
    end := ReturnedNone;
  }

  /** How the fetch ends, decided by the attempts alone: it returns timings
      iff some attempt within the budget succeeds (`TriesReturnsFirstSuccess`
      shows the first such attempt is the last one made); it exits iff none
      succeeds and the last attempt raised; it returns None iff none succeeds
      and the last attempt found falsy data (or the budget is not positive). */
  lemma {:induction false} TriesEnd(left: int, waitTime: nat, outcomes: seq<Outcome>)
    requires left <= |outcomes|
    ensures var r := Tries(left, waitTime, outcomes);
      && (r.end.Returned? <==> exists i :: 0 <= i < left && outcomes[i].Timings?)
      && (r.end == Exit <==>
            left >= 1 && (forall i :: 0 <= i < left ==> !outcomes[i].Timings?)
            && outcomes[left - 1] == Raised)
      && (r.end == ReturnedNone <==>
            (forall i :: 0 <= i < left ==> !outcomes[i].Timings?)
            && (left <= 0 || outcomes[left - 1] == Falsy))
    decreases |outcomes|
  {
    if left > 0 && !outcomes[0].Timings? && left > 1 {
      TriesEnd(left - 1, waitTime, outcomes[1..]);
      var r := Tries(left, waitTime, outcomes);
      forall i | 1 <= i < left ensures outcomes[1..][i - 1] == outcomes[i] { }
      if exists i :: 0 <= i < left && outcomes[i].Timings? {
        var i :| 0 <= i < left && outcomes[i].Timings?;
        assert i > 0 && outcomes[1..][i - 1].Timings?;
      }
      assert outcomes[1..][left - 2] == outcomes[left - 1];
    }
  }

  /** How many times `e` occurs among `steps`. */
  function Count(steps: seq<Step>, e: Step): nat
  {
    if |steps| == 0 then 0 else (if steps[0] == e then 1 else 0) + Count(steps[1..], e)
  }

  lemma CountCons(x: Step, steps: seq<Step>, e: Step)
    ensures Count([x] + steps, e) == (if x == e then 1 else 0) + Count(steps, e)
  {
    assert ([x] + steps)[1..] == steps;
  }

  lemma CountPair(x: Step, y: Step, steps: seq<Step>, e: Step)
    ensures Count([x, y] + steps, e) == (if x == e then 1 else 0) + (if y == e then 1 else 0) + Count(steps, e)
  {
    assert [x, y] + steps == [x] + ([y] + steps);
    CountCons(x, [y] + steps, e);
    CountCons(y, steps, e);
  }

  lemma {:induction false} CountPositive(steps: seq<Step>, e: Step)
    ensures Count(steps, e) > 0 <==> e in steps
    decreases |steps|
  {
    if |steps| > 0 {
      CountPositive(steps[1..], e);
      assert steps == [steps[0]] + steps[1..];
    }
  }

  /** When attempt `first` is the first to succeed within the budget, the
      fetch returns its filtered timings and makes no attempt after it. */
  lemma {:induction false} TriesReturnsFirstSuccess(left: int, waitTime: nat, outcomes: seq<Outcome>, first: nat)
    requires left <= |outcomes|
    requires first < left && outcomes[first].Timings?
    requires forall j :: 0 <= j < first ==> !outcomes[j].Timings?
    ensures Tries(left, waitTime, outcomes).end == Returned(FilterTimings(outcomes[first].t))
    ensures Count(Tries(left, waitTime, outcomes).steps, Request) == first + 1
    ensures Last(Tries(left, waitTime, outcomes).steps) == Request
    decreases first
  {
    TriesUnfold(left, waitTime, outcomes);
    if first > 0 {
      assert !outcomes[0].Timings?;
      forall j | 0 <= j < first - 1 ensures !outcomes[1..][j].Timings? {
        assert outcomes[1..][j] == outcomes[j + 1];
      }
      assert outcomes[1..][first - 1] == outcomes[first];
      TriesReturnsFirstSuccess(left - 1, waitTime, outcomes[1..], first - 1);
      var rest := Tries(left - 1, waitTime, outcomes[1..]);
      if outcomes[0] == Raised {
        CountPair(Request, Pause(waitTime), rest.steps, Request);
      } else {
        CountCons(Request, rest.steps, Request);
      }
    } else {
      assert Count([Request], Request) == 1;
    }
  }

  function Last<T>(s: seq<T>): T
    requires |s| > 0
  {
    s[|s| - 1]
  }

  /** At most `max_retries` requests, at least one when the budget is
      positive, and all of them when no attempt succeeds: the loop leaves
      early only by returning timings. One failure notice is sent exactly
      when the fetch exits. */
  lemma {:induction false} TriesRequests(left: int, waitTime: nat, outcomes: seq<Outcome>)
    requires left <= |outcomes|
    ensures var r := Tries(left, waitTime, outcomes);
      && (left <= 0 ==> r.steps == [])
      && (left > 0 ==> 1 <= Count(r.steps, Request) <= left)
      && (left > 0 && !r.end.Returned? ==> Count(r.steps, Request) == left)
      && Count(r.steps, FailureNotice) == (if r.end == Exit then 1 else 0)
    decreases |outcomes|
  {
    if left > 0 {
      TriesUnfold(left, waitTime, outcomes);
      var rest := Tries(left - 1, waitTime, outcomes[1..]);
      match outcomes[0] {
        case Timings(_) =>
          assert Count([Request], Request) == 1 && Count([Request], FailureNotice) == 0;
        case Falsy =>
          TriesRequests(left - 1, waitTime, outcomes[1..]);
          CountCons(Request, rest.steps, Request);
          CountCons(Request, rest.steps, FailureNotice);
        case Raised =>
          if left > 1 {
            TriesRequests(left - 1, waitTime, outcomes[1..]);
            CountPair(Request, Pause(waitTime), rest.steps, Request);
            CountPair(Request, Pause(waitTime), rest.steps, FailureNotice);
          } else {
            CountPair(Request, FailureNotice, [], Request);
            CountPair(Request, FailureNotice, [], FailureNotice);
            assert [Request, FailureNotice] + [] == [Request, FailureNotice];
          }
      }
    }
  }

  /** Every pause of the fetch lasts `wait_time`. */
  lemma {:induction false} TriesPauseLength(left: int, waitTime: nat, outcomes: seq<Outcome>)
    requires left <= |outcomes|
    ensures forall s :: s in Tries(left, waitTime, outcomes).steps && s.Pause? ==> s == Pause(waitTime)
    decreases |outcomes|
  {
    if left > 0 {
      TriesUnfold(left, waitTime, outcomes);
      if !outcomes[0].Timings? && (outcomes[0] == Falsy || left > 1) {
        TriesPauseLength(left - 1, waitTime, outcomes[1..]);
      }
    }
  }

  /** One pause per raised attempt, except the last attempt made. */
  lemma {:induction false} TriesPauses(left: int, waitTime: nat, outcomes: seq<Outcome>)
    requires 0 < left <= |outcomes|
    ensures var r := Tries(left, waitTime, outcomes);
      && 1 <= Count(r.steps, Request) <= left
      && Count(r.steps, Pause(waitTime)) == CountRaised(outcomes[..Count(r.steps, Request) - 1])
    decreases |outcomes|
  {
    TriesRequests(left, waitTime, outcomes);
    TriesUnfold(left, waitTime, outcomes);
    if outcomes[0].Timings? || left == 1 {
      PausesOfLastAttempt(left, waitTime, outcomes);
    } else {
      TriesPauses(left - 1, waitTime, outcomes[1..]);
      PausesOfEarlierAttempt(left, waitTime, outcomes);
    }
  }

  /** The fetch stops at its first attempt: no pause. */
  lemma PausesOfLastAttempt(left: int, waitTime: nat, outcomes: seq<Outcome>)
    requires 0 < left <= |outcomes|
    requires outcomes[0].Timings? || left == 1
    ensures var r := Tries(left, waitTime, outcomes);
      && Count(r.steps, Request) == 1
      && Count(r.steps, Pause(waitTime)) == 0
  {
    TriesUnfold(left, waitTime, outcomes);
    var rest := Tries(left - 1, waitTime, outcomes[1..]);
    if outcomes[0].Timings? {
      assert Count([Request], Request) == 1;
      assert Count([Request], Pause(waitTime)) == 0;
    } else if outcomes[0] == Raised {
      CountPair(Request, FailureNotice, [], Request);
      CountPair(Request, FailureNotice, [], Pause(waitTime));
      assert [Request, FailureNotice] + [] == [Request, FailureNotice];
    } else {
      assert rest.steps == [];
      CountCons(Request, [], Request);
      CountCons(Request, [], Pause(waitTime));
    }
  }

  /** The fetch goes on past its first attempt: the first attempt adds a
      request, and a pause when it raised. */
  lemma PausesOfEarlierAttempt(left: int, waitTime: nat, outcomes: seq<Outcome>)
    requires 1 < left <= |outcomes| && !outcomes[0].Timings?
    requires var rest := Tries(left - 1, waitTime, outcomes[1..]);
      && 1 <= Count(rest.steps, Request) <= left - 1
      && Count(rest.steps, Pause(waitTime)) == CountRaised(outcomes[1..][..Count(rest.steps, Request) - 1])
    ensures var r := Tries(left, waitTime, outcomes);
      && Count(r.steps, Request) == Count(Tries(left - 1, waitTime, outcomes[1..]).steps, Request) + 1
      && Count(r.steps, Pause(waitTime)) == CountRaised(outcomes[..Count(r.steps, Request) - 1])
  {
    TriesUnfold(left, waitTime, outcomes);
    var r := Tries(left, waitTime, outcomes);
    var rest := Tries(left - 1, waitTime, outcomes[1..]);
    var made := Count(rest.steps, Request);
    var raised := if outcomes[0] == Raised then 1 else 0;
    if outcomes[0] == Raised {
      CountPair(Request, Pause(waitTime), rest.steps, Request);
      CountPair(Request, Pause(waitTime), rest.steps, Pause(waitTime));
    } else {
      CountCons(Request, rest.steps, Request);
      CountCons(Request, rest.steps, Pause(waitTime));
    }
    assert Count(r.steps, Pause(waitTime)) == raised + CountRaised(outcomes[1..][..made - 1]);
    CountRaisedCons(outcomes, made);
  }

  /** What attempt `i` of a budget of `left` contributes, by lines 18-33: a
      request, then a pause when it raised and was not the last allowed. */
  function AttemptSteps(outcomes: seq<Outcome>, left: int, waitTime: nat, i: nat): seq<Step>
    requires i < |outcomes|
  {
    [Request] + (if outcomes[i] == Raised && i < left - 1 then [Pause(waitTime)] else [])
  }

  /** The steps of attempts `i` up to `n`, one attempt after another. */
  function AttemptsFrom(outcomes: seq<Outcome>, left: int, waitTime: nat, i: nat, n: nat): seq<Step>
    requires i <= n <= |outcomes|
    decreases n - i
  {
    if i == n then [] else AttemptSteps(outcomes, left, waitTime, i) + AttemptsFrom(outcomes, left, waitTime, i + 1, n)
  }

  /** The steps are, attempt by attempt over the attempts made, a request
      followed by a pause exactly when that attempt raised and was not the
      last allowed; the failure notice closes them when the fetch exits. This
      holds from any attempt `i` on, the loop having `left - i` attempts
      left. */
  lemma {:induction false} TriesByAttempt(left: int, waitTime: nat, outcomes: seq<Outcome>, i: nat)
    requires left <= |outcomes| && i <= |outcomes|
    ensures var r := Tries(left - i, waitTime, outcomes[i..]);
      && i + Count(r.steps, Request) <= |outcomes|
      && r.steps == AttemptsFrom(outcomes, left, waitTime, i, i + Count(r.steps, Request))
                    + (if r.end == Exit then [FailureNotice] else [])
    decreases |outcomes| - i
  {
    if left - i > 0 {
      if outcomes[i].Timings? {
        ByAttemptLast(left, waitTime, outcomes, i);
      } else if outcomes[i] == Raised && left - i == 1 {
        ByAttemptLast(left, waitTime, outcomes, i);
      } else {
        TriesByAttempt(left, waitTime, outcomes, i + 1);
        ByAttemptNext(left, waitTime, outcomes, i);
      }
    }
  }

  /** Lines 18-38 attempt by attempt: the fetch's steps are, over the
      attempts it makes, each attempt's request followed by a pause exactly
      when that attempt raised and another attempt is allowed, and then the
      failure notice when the fetch exits. */
  lemma TriesStepsByAttempt(left: int, waitTime: nat, outcomes: seq<Outcome>)
    requires left <= |outcomes|
    ensures var r := Tries(left, waitTime, outcomes);
      && Count(r.steps, Request) <= |outcomes|
      && r.steps == AttemptsFrom(outcomes, left, waitTime, 0, Count(r.steps, Request))
                    + (if r.end == Exit then [FailureNotice] else [])
  {
    TriesByAttempt(left, waitTime, outcomes, 0);
    assert outcomes[0..] == outcomes;
  }

  /** An attempt after which the loop stops: a success, or the last allowed
      attempt raising. */
  lemma ByAttemptLast(left: int, waitTime: nat, outcomes: seq<Outcome>, i: nat)
    requires left <= |outcomes| && i < |outcomes| && 0 < left - i
    requires outcomes[i].Timings? || (outcomes[i] == Raised && left - i == 1)
    ensures var r := Tries(left - i, waitTime, outcomes[i..]);
      && Count(r.steps, Request) == 1
      && r.steps == AttemptsFrom(outcomes, left, waitTime, i, i + 1)
                    + (if r.end == Exit then [FailureNotice] else [])
  {
    TriesUnfold(left - i, waitTime, outcomes[i..]);
    assert outcomes[i..][0] == outcomes[i];
    assert AttemptsFrom(outcomes, left, waitTime, i, i + 1) == AttemptSteps(outcomes, left, waitTime, i) + [];
    assert AttemptSteps(outcomes, left, waitTime, i) == [Request];
    if outcomes[i].Timings? {
      CountCons(Request, [], Request);
      assert [Request] + [] == [Request];
    } else {
      CountPair(Request, FailureNotice, [], Request);
      assert [Request, FailureNotice] + [] == [Request, FailureNotice];
    }
  }

  /** An attempt after which the loop goes on: its steps come first, then
      those of the attempts after it. */
  lemma ByAttemptNext(left: int, waitTime: nat, outcomes: seq<Outcome>, i: nat)
    requires left <= |outcomes| && i < |outcomes| && 0 < left - i
    requires outcomes[i] == Falsy || (outcomes[i] == Raised && left - i > 1)
    requires var rest := Tries(left - i - 1, waitTime, outcomes[i + 1..]);
      && i + 1 + Count(rest.steps, Request) <= |outcomes|
      && rest.steps == AttemptsFrom(outcomes, left, waitTime, i + 1, i + 1 + Count(rest.steps, Request))
                       + (if rest.end == Exit then [FailureNotice] else [])
    ensures var r := Tries(left - i, waitTime, outcomes[i..]);
      && i + Count(r.steps, Request) <= |outcomes|
      && r.steps == AttemptsFrom(outcomes, left, waitTime, i, i + Count(r.steps, Request))
                    + (if r.end == Exit then [FailureNotice] else [])
  {
    var r := Tries(left - i, waitTime, outcomes[i..]);
    var rest := Tries(left - i - 1, waitTime, outcomes[i + 1..]);
    TriesUnfold(left - i, waitTime, outcomes[i..]);
    assert outcomes[i..][0] == outcomes[i];
    assert outcomes[i..][1..] == outcomes[i + 1..];
    var head := AttemptSteps(outcomes, left, waitTime, i);
    var made := Count(rest.steps, Request);
    var tail := AttemptsFrom(outcomes, left, waitTime, i + 1, i + 1 + made);
    var notice := if rest.end == Exit then [FailureNotice] else [];
    assert r.steps == head + rest.steps && r.end == rest.end;
    if outcomes[i] == Falsy {
      assert head == [Request];
      CountCons(Request, rest.steps, Request);
    } else {
      assert head == [Request, Pause(waitTime)];
      CountPair(Request, Pause(waitTime), rest.steps, Request);
    }
    assert Count(r.steps, Request) == made + 1;
    assert AttemptsFrom(outcomes, left, waitTime, i, i + 1 + made) == head + tail;
    assert r.steps == (head + tail) + notice;
  }


  lemma CountRaisedCons(outcomes: seq<Outcome>, n: nat)
    requires 1 <= n < |outcomes|
    ensures CountRaised(outcomes[..n]) ==
      (if outcomes[0] == Raised then 1 else 0) + CountRaised(outcomes[1..][..n - 1])
  {
    assert outcomes[..n][1..] == outcomes[1..][..n - 1];
  }

  /** A source that always fails: exactly `max_retries` requests, a pause
      between consecutive ones, then the failure notice and SystemExit. */
  lemma {:induction false} AlwaysFailing(left: int, waitTime: nat, outcomes: seq<Outcome>)
    requires 1 <= left <= |outcomes|
    requires forall i :: 0 <= i < left ==> outcomes[i] == Raised
    ensures Tries(left, waitTime, outcomes).end == Exit
    ensures Tries(left, waitTime, outcomes).steps ==
      RepeatTwo(Request, Pause(waitTime), left - 1) + [Request, FailureNotice]
    decreases |outcomes|
  {
    assert outcomes[0] == Raised;
    if left > 1 {
      forall i | 0 <= i < left - 1 ensures outcomes[1..][i] == Raised {
        assert outcomes[1..][i] == outcomes[i + 1];
      }
      AlwaysFailing(left - 1, waitTime, outcomes[1..]);
    }
  }

  /** `a, b` repeated `n` times. */
  function RepeatTwo(a: Step, b: Step, n: nat): (r: seq<Step>)
    ensures |r| == 2 * n
  {
    if n == 0 then [] else [a, b] + RepeatTwo(a, b, n - 1)
  }

  /** A source that always answers with falsy data: every attempt is made,
      nothing sleeps, nothing is notified, and the function returns None. */
  lemma {:induction false} SilentFallThrough(left: int, waitTime: nat, outcomes: seq<Outcome>)
    requires left <= |outcomes|
    requires forall i :: 0 <= i < left ==> outcomes[i] == Falsy
    ensures Tries(left, waitTime, outcomes).end == ReturnedNone
    ensures Tries(left, waitTime, outcomes).steps == seq(if left < 0 then 0 else left, _ => Request)
    decreases |outcomes|
  {
    if left > 0 {
      assert outcomes[0] == Falsy;
      forall i | 0 <= i < left - 1 ensures outcomes[1..][i] == Falsy {
        assert outcomes[1..][i] == outcomes[i + 1];
      }
      SilentFallThrough(left - 1, waitTime, outcomes[1..]);
    }
  }

  /** Attempts that fail `failures` times by raising and then succeed: one
      pause between each pair of requests and none after the success. */
  lemma {:induction false} RecoversAfterFailures(left: int, waitTime: nat, outcomes: seq<Outcome>, failures: nat)
    requires failures < left <= |outcomes|
    requires forall i :: 0 <= i < failures ==> outcomes[i] == Raised
    requires outcomes[failures].Timings?
    ensures Tries(left, waitTime, outcomes).end == Returned(FilterTimings(outcomes[failures].t))
    ensures Tries(left, waitTime, outcomes).steps == RepeatTwo(Request, Pause(waitTime), failures) + [Request]
    decreases failures
  {
    if failures > 0 {
      assert outcomes[0] == Raised;
      forall i | 0 <= i < failures - 1 ensures outcomes[1..][i] == Raised {
        assert outcomes[1..][i] == outcomes[i + 1];
      }
      assert outcomes[1..][failures - 1] == outcomes[failures];
      RecoversAfterFailures(left - 1, waitTime, outcomes[1..], failures - 1);
    }
  }

  /** Filtering the eleven keys of a typical timings object, in the
      service's order, leaves the five prayers with their values. */
  lemma FivePrayersSurvive(t: Dict<Json>)
    requires |t| == 11
    requires t[0].0 == "Fajr" && t[1].0 == "Sunrise" && t[2].0 == "Dhuhr" && t[3].0 == "Asr"
    requires t[4].0 == "Sunset" && t[5].0 == "Maghrib" && t[6].0 == "Isha" && t[7].0 == "Imsak"
    requires t[8].0 == "Midnight" && t[9].0 == "Firstthird" && t[10].0 == "Lastthird"
    ensures FilterTimings(t) == [t[0], t[2], t[3], t[5], t[6]]
  {
    var x := ExcludedSet();
    assert x == {"Sunrise", "Sunset", "Imsak", "Midnight", "Firstthird", "Lastthird"};
    assert "Fajr" !in x && "Dhuhr" !in x && "Asr" !in x && "Maghrib" !in x && "Isha" !in x;
    WithoutEleven(t, x);
    FilterTimingsSpec(t);
  }

  lemma WithoutEleven(t: Dict<Json>, x: set<string>)
    requires |t| == 11
    requires t[0].0 !in x && t[1].0 in x && t[2].0 !in x && t[3].0 !in x && t[4].0 in x && t[5].0 !in x
    requires t[6].0 !in x && t[7].0 in x && t[8].0 in x && t[9].0 in x && t[10].0 in x
    ensures Without(t, x) == [t[0], t[2], t[3], t[5], t[6]]
  {
    WithoutTailDropped(t, x);
    WithoutMiddle(t, x);
    WithoutStep(t, x, 3);
    WithoutStep(t, x, 2);
    WithoutStep(t, x, 1);
    WithoutStep(t, x, 0);
    assert t[0..] == t;
  }

  lemma WithoutTailDropped(t: Dict<Json>, x: set<string>)
    requires |t| == 11
    requires t[7].0 in x && t[8].0 in x && t[9].0 in x && t[10].0 in x
    ensures Without(t[7..], x) == []
  {
    assert t[11..] == [];
    WithoutStep(t, x, 10);
    WithoutStep(t, x, 9);
    WithoutStep(t, x, 8);
    WithoutStep(t, x, 7);
  }

  lemma WithoutMiddle(t: Dict<Json>, x: set<string>)
    requires |t| == 11
    requires t[4].0 in x && t[5].0 !in x && t[6].0 !in x && Without(t[7..], x) == []
    ensures Without(t[4..], x) == [t[5], t[6]]
  {
    WithoutStep(t, x, 6);
    WithoutStep(t, x, 5);
    WithoutStep(t, x, 4);
  }

  lemma WithoutStep(t: Dict<Json>, x: set<string>, i: nat)
    requires i < |t|
    ensures Without(t[i..], x) == if t[i].0 in x then Without(t[i + 1..], x) else [t[i]] + Without(t[i + 1..], x)
  {
    assert t[i..] == [t[i]] + t[i + 1..];
    WithoutCons(t[i], t[i + 1..], x);
  }

  /** Returned timings are the filtered timings of one of the attempts. */
  lemma {:induction false} ReturnedFromAttempt(left: int, waitTime: nat, outcomes: seq<Outcome>)
    requires left <= |outcomes|
    requires Tries(left, waitTime, outcomes).end.Returned?
    ensures exists i :: (0 <= i < left && outcomes[i].Timings?
      && Tries(left, waitTime, outcomes).end.timings == FilterTimings(outcomes[i].t))
    decreases |outcomes|
  {
    if !outcomes[0].Timings? {
      ReturnedFromAttempt(left - 1, waitTime, outcomes[1..]);
      var i :| 0 <= i < left - 1 && outcomes[1..][i].Timings?
        && Tries(left - 1, waitTime, outcomes[1..]).end.timings == FilterTimings(outcomes[1..][i].t);
      assert outcomes[1..][i] == outcomes[i + 1];
    }
  }
}

=== FILE: json.dfy ===
/** The value `json.loads` returns, and Python's truthiness of it.
    JSON numbers are modelled as integers. */
module Json {
  import opened Wrappers
  import opened PyDict

  datatype Json =
    | JNull
    | JBool(b: bool)
    | JNum(n: int)
    | JStr(s: string)
    | JArr(items: seq<Json>)
    | JObj(fields: Dict<Json>)

  /** `bool(v)`: None, False, 0 and empty strings, lists and dicts are false. */
  predicate Truthy(v: Json)
  {
    match v
    case JNull => false
    case JBool(b) => b
    case JNum(n) => n != 0
    case JStr(s) => |s| > 0
    case JArr(items) => |items| > 0
    case JObj(fields) => |fields| > 0
  }

  /** What `json.loads` can return: a Python dict never holds one key twice,
      so every object, at every depth, has distinct keys. */
  predicate WellFormed(v: Json)
  {
    match v
    case JArr(items) => forall i :: 0 <= i < |items| ==> WellFormed(items[i])
    case JObj(fields) => DistinctKeys(fields) && forall i :: 0 <= i < |fields| ==> WellFormed(fields[i].1)
    case _ => true
  }

  /** A member of a well-formed value is well-formed. */
  lemma MemberWellFormed(v: Json, key: string)
    requires WellFormed(v) && Member(v, key).Some?
    ensures WellFormed(Member(v, key).value)
  {
    var i :| 0 <= i < |v.fields| && v.fields[i] == (key, Member(v, key).value);
  }

  /** `v[key]` for a dict `v`; None when `v` is not a dict or lacks the key. */
  function Member(v: Json, key: string): (r: Option<Json>)
    ensures r.Some? <==> v.JObj? && key in Keys(v.fields)
  {
    if v.JObj? then Get(v.fields, key) else None
  }
}

=== FILE: program.dfy ===
/** The whole program (main.py lines 50-51 and 88-91): the optional startup
    notification, the fetch of today's timetable, and the polling loop over
    it, with the command-line values shaped as line 91 shapes them. */
module Program {
  import opened Wrappers
  import opened PyDict
  import opened Json
  import opened Clock
  import opened Fetch
  import opened Scheduler

  /** Line 13's defaults, the values `main` uses at line 51. */
  const MaxRetries: int := 5
  const WaitTime: nat := 5

  /** Line 91: `country.replace(" ", "+")`, the form the query string takes. */
  function QueryCountry(country: string): (r: string)
    ensures |r| == |country|
    ensures ' ' !in r
    ensures forall i :: 0 <= i < |r| && country[i] == ' ' ==> r[i] == '+'
    ensures forall i :: 0 <= i < |r| && country[i] != ' ' ==> r[i] == country[i]
  {
    if |country| == 0 then ""
    else [if country[0] == ' ' then '+' else country[0]] + QueryCountry(country[1..])
  }

  function RestoreSpaces(query: string): string
  {
    if |query| == 0 then ""
    else [if query[0] == '+' then ' ' else query[0]] + RestoreSpaces(query[1..])
  }

  /** A country name without '+' is recovered from its query form, so the
      replacement loses nothing. */
  lemma {:induction false} QueryCountryRoundTrip(country: string)
    requires '+' !in country
    ensures RestoreSpaces(QueryCountry(country)) == country
  {
    if |country| > 0 {
      QueryCountryRoundTrip(country[1..]);
      assert QueryCountry(country)[1..] == QueryCountry(country[1..]);
    }
  }

  /** Line 91: the gap `main` receives is one less than the `--gap` given. */
  function ConfigFromArgs(iqama: bool, gap: int): Config
  {
    Config(iqama, gap - 1)
  }

  /** With the default `--gap 15`, a dhuhr at 12:30 read at 12:30:00 with no
      late wake-ups is followed by its iqāma at exactly 12:44:00, after 52
      ticks of the wait. */
  lemma DhuhrExample()
    ensures var s := SweepOnce([("Dhuhr", At(750))], ConfigFromArgs(true, 15), Clock(45000, []));
      && |s.fired| == 1
      && s.fired[0].prayer == "Dhuhr"
      && s.fired[0].adhanAt == 45000
      && s.fired[0].iqamaAt == Some(45840)
  {
    var cooled := Sleep(Clock(45000, []), Cooldown);
    assert cooled == Clock(45060, []);
    assert Reminder(750, 14) == 764;
    WaitIsPrompt(cooled, 764);
    var w := WaitFor(cooled, 764);
    assert w.ticks == 52;
  }

  /** Line 33: the pauses of the fetch sleep, which moves the clock before
      the loop starts. */
  function AfterPauses(c: Clock, steps: seq<Step>): (r: Clock)
    ensures r.now >= c.now
    ensures c.lag == [] ==> r.lag == []
    decreases |steps|
  {
    if |steps| == 0 then c
    else if steps[0].Pause? then AfterPauses(Sleep(c, steps[0].seconds), steps[1..])
    else AfterPauses(c, steps[1..])
  }

  lemma MulSucc(w: nat, n: nat)
    ensures w * (n + 1) == w * n + w
  {
  }

  /** Each pause of `w` seconds moves the clock on by at least `w`. */
  lemma {:induction false} PausesAdvance(c: Clock, steps: seq<Step>, w: nat)
    ensures AfterPauses(c, steps).now >= c.now + w * Count(steps, Pause(w))
    decreases |steps|
  {
    if |steps| > 0 {
      var next := if steps[0].Pause? then Sleep(c, steps[0].seconds) else c;
      var n := Count(steps[1..], Pause(w));
      PausesAdvance(next, steps[1..], w);
      assert AfterPauses(c, steps) == AfterPauses(next, steps[1..]);
      if steps[0] == Pause(w) {
        assert Count(steps, Pause(w)) == n + 1;
        MulSucc(w, n);
        assert next.now >= c.now + w;
      } else {
        assert Count(steps, Pause(w)) == n;
      }
    }
  }

  /** Why the run stopped: SystemExit after the failed fetch; AttributeError
      at line 55 because the fetch returned None; an uncaught exception from a
      time string; or the sweeps modelled were used up. */
  datatype Halt = FetchExited | NoTimetable | Crashed | OutOfFuel

  datatype Session = Session(startup: bool, fetch: FetchRun, sweeps: seq<Sweep>, halt: Halt)

  /** Lines 88-91 and 50-71: the startup notification unless `-n`, the
      fetch, then `fuel` sweeps of the loop over the returned timings. */
  function Pyminaret(initNotifDisabled: bool, attempts: seq<Attempt>, iqama: bool, gap: int, c: Clock, fuel: nat): (s: Session)
    requires MaxRetries <= |attempts|
    ensures s.startup == !initNotifDisabled
    ensures s.fetch == Tries(MaxRetries, WaitTime, ClassifyAll(attempts))
    ensures s.halt == FetchExited <==> s.fetch.end == Exit
    ensures s.halt == NoTimetable <==> s.fetch.end == ReturnedNone
    ensures !s.fetch.end.Returned? ==> s.sweeps == []
    ensures s.fetch.end.Returned? ==>
      s.sweeps == Run(ScheduleOf(s.fetch.end.timings), ConfigFromArgs(iqama, gap), AfterPauses(c, s.fetch.steps), fuel)
  {
    var f := Tries(MaxRetries, WaitTime, ClassifyAll(attempts));
    match f.end
    case Exit => Session(!initNotifDisabled, f, [], FetchExited)
    case ReturnedNone => Session(!initNotifDisabled, f, [], NoTimetable)
    case Returned(t) =>
      var r := Run(ScheduleOf(t), ConfigFromArgs(iqama, gap), AfterPauses(c, f.steps), fuel);
      Session(!initNotifDisabled, f, r, if |r| > 0 && r[|r| - 1].crashed then Crashed else OutOfFuel)
  }

  /** The notifications the user sees. */
  datatype Notice = Startup | ApiError | Adhan(prayer: string, at: nat) | Iqama(prayer: string, at: nat)

  function FiringNotices(fired: seq<Firing>): (r: seq<Notice>)
    ensures ApiError !in r && Startup !in r
  {
    if |fired| == 0 then []
    else
      var f := fired[0];
      [Adhan(f.prayer, f.adhanAt)]
      + (if f.iqamaAt.Some? then [Iqama(f.prayer, f.iqamaAt.value)] else [])
      + FiringNotices(fired[1..])
  }

  function SweepNotices(sweeps: seq<Sweep>): (r: seq<Notice>)
    ensures ApiError !in r && Startup !in r
  {
    if |sweeps| == 0 then [] else FiringNotices(sweeps[0].fired) + SweepNotices(sweeps[1..])
  }

  function Notices(s: Session): (r: seq<Notice>)
    ensures Startup in r <==> s.startup
    ensures ApiError in r <==> FailureNotice in s.fetch.steps
  {
    (if s.startup then [Startup] else [])
    + (if FailureNotice in s.fetch.steps then [ApiError] else [])
    + SweepNotices(s.sweeps)
  }

  /** The API error is announced once, exactly when the fetch exits, and then
      nothing else follows the startup notice. When the fetch falls through
      to None, nothing at all is announced beyond the startup notice. */
  lemma NoticesOfFetch(initNotifDisabled: bool, attempts: seq<Attempt>, iqama: bool, gap: int, c: Clock, fuel: nat)
    requires MaxRetries <= |attempts|
    ensures var s := Pyminaret(initNotifDisabled, attempts, iqama, gap, c, fuel);
      var startup := if initNotifDisabled then [] else [Startup];
      && multiset(Notices(s))[ApiError] == (if s.halt == FetchExited then 1 else 0)
      && (s.halt == FetchExited ==> Notices(s) == startup + [ApiError])
      && (s.halt == NoTimetable ==> Notices(s) == startup)
  {
    var s := Pyminaret(initNotifDisabled, attempts, iqama, gap, c, fuel);
    TriesRequests(MaxRetries, WaitTime, ClassifyAll(attempts));
    CountPositive(s.fetch.steps, FailureNotice);
    var startup := if initNotifDisabled then [] else [Startup];
    var notice := if s.halt == FetchExited then [ApiError] else [];
    var tail := SweepNotices(s.sweeps);
    assert Notices(s) == startup + notice + tail;
    assert multiset(tail)[ApiError] == 0;
    assert multiset(startup)[ApiError] == 0;
    if s.halt == FetchExited || s.halt == NoTimetable {
      assert tail == [];
    }
  }

  /** Each iqāma notification comes directly after the adhān notification
      of the same firing. */
  lemma {:induction false} IqamaFollowsAdhan(fired: seq<Firing>, k: nat)
    requires k < |fired|
    requires fired[k].iqamaAt.Some?
    ensures exists n :: (0 <= n < |FiringNotices(fired)| - 1
      && FiringNotices(fired)[n] == Adhan(fired[k].prayer, fired[k].adhanAt)
      && FiringNotices(fired)[n + 1] == Iqama(fired[k].prayer, fired[k].iqamaAt.value))
    decreases k
  {
    var r := FiringNotices(fired);
    var head := [Adhan(fired[0].prayer, fired[0].adhanAt)]
      + (if fired[0].iqamaAt.Some? then [Iqama(fired[0].prayer, fired[0].iqamaAt.value)] else []);
    assert r == head + FiringNotices(fired[1..]);
    if k == 0 {
      assert r[0] == Adhan(fired[0].prayer, fired[0].adhanAt);
      assert r[1] == Iqama(fired[0].prayer, fired[0].iqamaAt.value);
    } else {
      var rest := fired[1..];
      assert rest[k - 1] == fired[k];
      IqamaFollowsAdhan(rest, k - 1);
      var n :| 0 <= n < |FiringNotices(rest)| - 1
        && FiringNotices(rest)[n] == Adhan(rest[k - 1].prayer, rest[k - 1].adhanAt)
        && FiringNotices(rest)[n + 1] == Iqama(rest[k - 1].prayer, rest[k - 1].iqamaAt.value);
      assert r[|head| + n] == FiringNotices(rest)[n];
      assert r[|head| + n + 1] == FiringNotices(rest)[n + 1];
    }
  }

  /** With iqāma reminders off no iqāma notification is ever sent. */
  lemma {:induction false} NoIqamaWhenDisabled(fired: seq<Firing>)
    requires forall j :: 0 <= j < |fired| ==> fired[j].iqamaAt.None?
    ensures forall n :: 0 <= n < |FiringNotices(fired)| ==> FiringNotices(fired)[n].Adhan?
    ensures |FiringNotices(fired)| == |fired|
  {
    if |fired| > 0 {
      assert forall j :: 0 <= j < |fired[1..]| ==> fired[1..][j] == fired[j + 1];
      NoIqamaWhenDisabled(fired[1..]);
    }
  }

  /** The filtered timetable keeps a dict's distinct keys, so the loop over it
      never fires a prayer twice for one minute. */
  lemma TimetableKeysDistinct(t: Dict<Json>)
    requires DistinctKeys(t)
    ensures DistinctKeys(ScheduleOf(FilterTimings(t)))
  {
    FilterTimingsSpec(t);
    WithoutKeepsDistinct(t, ExcludedSet());
    var f := FilterTimings(t);
    var sched := ScheduleOf(f);
    forall i, j | 0 <= i < j < |sched| ensures sched[i].0 != sched[j].0 {
      assert sched[i].0 == f[i].0 && sched[j].0 == f[j].0;
    }
  }

  /** An attempt whose body is, as any `json.loads` result is, well formed. */
  predicate Decoded(a: Attempt)
  {
    a.Body? ==> WellFormed(a.json)
  }

  /** Over the whole session, no prayer fires twice in a sweep, and every
      sweep after a firing one reads a later minute. */
  lemma SessionNoDoubleFire(initNotifDisabled: bool, attempts: seq<Attempt>, iqama: bool, gap: int, c: Clock, fuel: nat)
    requires MaxRetries <= |attempts|
    requires forall i :: 0 <= i < |attempts| ==> Decoded(attempts[i])
    ensures NoDoubleFiring(Pyminaret(initNotifDisabled, attempts, iqama, gap, c, fuel).sweeps)
  {
    var outcomes := ClassifyAll(attempts);
    var s := Pyminaret(initNotifDisabled, attempts, iqama, gap, c, fuel);
    var f := s.fetch;
    if f.end.Returned? {
      ReturnedFromAttempt(MaxRetries, WaitTime, outcomes);
      var i :| 0 <= i < MaxRetries && outcomes[i].Timings? && f.end.timings == FilterTimings(outcomes[i].t);
      assert Decoded(attempts[i]) && Classify(attempts[i]).Timings?;
      TimingsWellFormed(attempts[i].json);
      TimetableKeysDistinct(outcomes[i].t);
      NoDoubleFire(ScheduleOf(f.end.timings), ConfigFromArgs(iqama, gap), AfterPauses(c, f.steps), fuel);
    }
  }

  /** The second of the day `--gap g` sets the iqāma reminder at for a
      prayer at `minute`: `g - 1` minutes later, wrapping at midnight. */
  function ReminderSecond(minute: nat, gap: int): nat
  {
    ((minute + gap - 1) % MinutesPerDay) * 60
  }

  /** One sweep with `--gap g`: a firing has an iqāma notification exactly
      when `--iqama` is set, at or after the time of day `g - 1` minutes past
      the minute the sweep read. */
  lemma SweepReminder(table: Schedule, iqama: bool, gap: int, s: Sweep, k: nat)
    requires s == SweepOnce(table, ConfigFromArgs(iqama, gap), s.start)
    requires k < |s.fired|
    ensures s.fired[k].iqamaAt.Some? <==> iqama
    ensures s.fired[k].iqamaAt.Some? ==>
      SecondOfDay(s.fired[k].iqamaAt.value) >= ReminderSecond(MinuteOfDay(s.Read()), gap)
  {
    SweepTiming(table, ConfigFromArgs(iqama, gap), s.start);
  }

  /** Over the whole session `s`, with `--gap g`: firing `k` of sweep `i`
      carries an iqāma notification exactly when `--iqama` is set, and that
      notification is sent at or after the time of day `g - 1` minutes past
      the minute its sweep read, wrapping at midnight. */
  lemma SessionReminders(initNotifDisabled: bool, attempts: seq<Attempt>, iqama: bool, gap: int, c: Clock, fuel: nat,
                         s: Session, i: nat, k: nat)
    requires MaxRetries <= |attempts|
    requires s == Pyminaret(initNotifDisabled, attempts, iqama, gap, c, fuel)
    requires i < |s.sweeps| && k < |s.sweeps[i].fired|
    ensures s.sweeps[i].fired[k].iqamaAt.Some? <==> iqama
    ensures s.sweeps[i].fired[k].iqamaAt.Some? ==>
      SecondOfDay(s.sweeps[i].fired[k].iqamaAt.value) >= ReminderSecond(MinuteOfDay(s.sweeps[i].Read()), gap)
  {
    var table := ScheduleOf(s.fetch.end.timings);
    var cfg := ConfigFromArgs(iqama, gap);
    assert s.fetch.end.Returned?;
    var r := Run(table, cfg, AfterPauses(c, s.fetch.steps), fuel);
    assert s.sweeps == r;
    RunIsSweeps(table, cfg, AfterPauses(c, s.fetch.steps), fuel);
    assert SweptFrom(table, cfg, r);
    SweepReminder(table, iqama, gap, r[i], k);
  }

  /** A session ends in a crash iff the fetch returned timings, at least one
      sweep ran, and the timetable holds a truthy entry that is not `HH:MM`
      text. */
  lemma SessionCrashRule(initNotifDisabled: bool, attempts: seq<Attempt>, iqama: bool, gap: int, c: Clock, fuel: nat,
                         s: Session)
    requires MaxRetries <= |attempts|
    requires s == Pyminaret(initNotifDisabled, attempts, iqama, gap, c, fuel)
    ensures s.halt == Crashed <==>
      && s.fetch.end.Returned?
      && fuel > 0
      && exists i :: 0 <= i < |ScheduleOf(s.fetch.end.timings)| && ScheduleOf(s.fetch.end.timings)[i].1 == Invalid
  {
    if s.fetch.end.Returned? {
      var table := ScheduleOf(s.fetch.end.timings);
      var cfg := ConfigFromArgs(iqama, gap);
      var r := Run(table, cfg, AfterPauses(c, s.fetch.steps), fuel);
      assert s.sweeps == r;
      RunCrashRule(table, cfg, AfterPauses(c, s.fetch.steps), fuel);
    }
  }
}

=== FILE: pydict.dfy ===
/** A Python `dict` with string keys, as an association list. A list rather
    than a `map` keeps the insertion order, which is the order in which the
    scheduler visits the timetable. A dict's keys are distinct; the operations
    below do not depend on that, and `DistinctKeys` states it where a property
    does. */
module PyDict {
  import opened Wrappers

  type Dict<V> = seq<(string, V)>

  function Keys<V>(d: Dict<V>): set<string>
  {
    set i | 0 <= i < |d| :: d[i].0
  }

  predicate DistinctKeys<V>(d: Dict<V>)
  {
    forall i, j :: 0 <= i < j < |d| ==> d[i].0 != d[j].0
  }

  /** `d.get(k)`: the value stored under `k`, or None when `k` is absent. */
  function Get<V>(d: Dict<V>, k: string): (r: Option<V>)
    ensures r.Some? <==> k in Keys(d)
    ensures r.Some? ==> exists i :: 0 <= i < |d| && d[i] == (k, r.value)
    ensures DistinctKeys(d) ==> forall i :: 0 <= i < |d| && d[i].0 == k ==> r == Some(d[i].1)
  {
    if |d| == 0 then None
    else if d[0].0 == k then Some(d[0].1)
    else
      var r := Get(d[1..], k);
      KeysOfCons(d);
      assert r.Some? ==> (exists i :: 0 <= i < |d| && d[i] == (k, r.value)) by {
        if r.Some? {
          var i :| 0 <= i < |d[1..]| && d[1..][i] == (k, r.value);
          assert d[i + 1] == (k, r.value);
        }
      }
      assert DistinctKeys(d) ==> DistinctKeys(d[1..]) by {
        if DistinctKeys(d) {
          forall i, j | 0 <= i < j < |d[1..]| ensures d[1..][i].0 != d[1..][j].0 {
            assert d[1..][i] == d[i + 1] && d[1..][j] == d[j + 1];
          }
        }
      }
      assert DistinctKeys(d) ==> forall i :: 0 <= i < |d| && d[i].0 == k ==> r == Some(d[i].1) by {
        if DistinctKeys(d) {
          forall i | 0 <= i < |d| && d[i].0 == k ensures r == Some(d[i].1) {
            assert i > 0;
            assert d[1..][i - 1] == d[i];
          }
        }
      }
      r
  }

  /** `d.pop(k, None)` with its result discarded: the entry under `k` goes, a
      missing `k` is no error, and the other entries keep their order. */
  function Pop<V>(d: Dict<V>, k: string): Dict<V>
  {
    if |d| == 0 then []
    else if d[0].0 == k then Pop(d[1..], k)
    else [d[0]] + Pop(d[1..], k)
  }

  /** The statement `for key in ks: d.pop(key, None)`. */
  function PopAll<V>(d: Dict<V>, ks: seq<string>): Dict<V>
    decreases |ks|
  {
    if |ks| == 0 then d else PopAll(Pop(d, ks[0]), ks[1..])
  }

  /** Reference definition: the entries of `d` whose key is not in `gone`,
      in their original order, in one pass. */
  function Without<V>(d: Dict<V>, gone: set<string>): Dict<V>
  {
    if |d| == 0 then []
    else if d[0].0 in gone then Without(d[1..], gone)
    else [d[0]] + Without(d[1..], gone)
  }

  lemma WithoutCons<V>(e: (string, V), d: Dict<V>, gone: set<string>)
    ensures Without([e] + d, gone) == if e.0 in gone then Without(d, gone) else [e] + Without(d, gone)
  {
    assert ([e] + d)[1..] == d;
  }

  lemma {:induction false} WithoutNothing<V>(d: Dict<V>)
    ensures Without(d, {}) == d
  {
    if |d| > 0 {
      WithoutNothing(d[1..]);
      assert d == [d[0]] + d[1..];
    }
  }

  lemma {:induction false} WithoutAfterPop<V>(d: Dict<V>, k: string, gone: set<string>)
    ensures Without(Pop(d, k), gone) == Without(d, gone + {k})
  {
    if |d| > 0 {
      WithoutAfterPop(d[1..], k, gone);
      if d[0].0 != k {
        assert ([d[0]] + Pop(d[1..], k))[1..] == Pop(d[1..], k);
      }
    }
  }

  /** Popping the keys one after another is the same as one filtering pass
      that drops all of them. */
  lemma {:induction false} PopAllIsWithout<V>(d: Dict<V>, ks: seq<string>)
    ensures PopAll(d, ks) == Without(d, set k | k in ks)
    decreases |ks|
  {
    if |ks| == 0 {
      assert (set k | k in ks) == {};
      WithoutNothing(d);
    } else {
      PopAllIsWithout(Pop(d, ks[0]), ks[1..]);
      WithoutAfterPop(d, ks[0], set k | k in ks[1..]);
      assert (set k | k in ks[1..]) + {ks[0]} == (set k | k in ks);
    }
  }

  /** Exactly the dropped keys disappear. */
  lemma {:induction false} WithoutKeys<V>(d: Dict<V>, gone: set<string>)
    ensures Keys(Without(d, gone)) == Keys(d) - gone
  {
    if |d| > 0 {
      WithoutKeys(d[1..], gone);
      KeysOfCons(d);
      if d[0].0 !in gone {
        var w := [d[0]] + Without(d[1..], gone);
        assert w[1..] == Without(d[1..], gone);
        KeysOfCons(w);
      }
    }
  }

  /** Every key that is not dropped still gives the same value. */
  lemma {:induction false} WithoutValues<V>(d: Dict<V>, gone: set<string>)
    ensures forall k :: k !in gone ==> Get(Without(d, gone), k) == Get(d, k)
  {
    if |d| > 0 {
      WithoutValues(d[1..], gone);
      if d[0].0 !in gone {
        var w := [d[0]] + Without(d[1..], gone);
        assert w[1..] == Without(d[1..], gone);
      }
    }
  }

  lemma KeysOfCons<V>(d: Dict<V>)
    requires |d| > 0
    ensures Keys(d) == {d[0].0} + Keys(d[1..])
  {
    forall x | x in Keys(d) ensures x in {d[0].0} + Keys(d[1..]) {
      var i :| 0 <= i < |d| && d[i].0 == x;
      if i > 0 { assert d[1..][i - 1].0 == x; }
    }
    forall x | x in Keys(d[1..]) ensures x in Keys(d) {
      var i :| 0 <= i < |d[1..]| && d[1..][i].0 == x;
      assert d[i + 1].0 == x;
    }
  }

  /** Filtering keeps exactly the entries whose key is not dropped, and
      never adds any. */
  lemma {:induction false} WithoutKeepsEntries<V>(d: Dict<V>, gone: set<string>)
    ensures |Without(d, gone)| <= |d|
    ensures forall e :: e in Without(d, gone) ==> e in d && e.0 !in gone
    ensures forall e :: e in d && e.0 !in gone ==> e in Without(d, gone)
  {
    if |d| > 0 {
      WithoutKeepsEntries(d[1..], gone);
      assert forall e :: e in d ==> e == d[0] || e in d[1..];
    }
  }

  /** Filtering keeps the keys distinct. */
  lemma {:induction false} WithoutKeepsDistinct<V>(d: Dict<V>, gone: set<string>)
    requires DistinctKeys(d)
    ensures DistinctKeys(Without(d, gone))
  {
    if |d| > 0 {
      var tail := d[1..];
      assert DistinctKeys(tail) by {
        forall i, j | 0 <= i < j < |tail| ensures tail[i].0 != tail[j].0 {
          assert tail[i] == d[i + 1] && tail[j] == d[j + 1];
        }
      }
      WithoutKeepsDistinct(tail, gone);
      if d[0].0 !in gone {
        var w := Without(tail, gone);
        WithoutKeys(tail, gone);
        assert d[0].0 !in Keys(tail);
        var r := [d[0]] + w;
        forall i, j | 0 <= i < j < |r| ensures r[i].0 != r[j].0 {
          assert r[j] == w[j - 1];
          if i == 0 {
            assert w[j - 1].0 in Keys(w);
          } else {
            assert r[i] == w[i - 1];
          }
        }
      }
    }
  }
}

=== FILE: scheduler.dfy ===
/** The polling loop of `main` (main.py lines 50-71): read the clock once,
    walk the timetable in order, and for every entry whose time equals the
    minute read, send the adhān notification, sleep 60 s, and when iqāma
    reminders are on, wait in 15 s ticks for the reminder time and send the
    iqāma notification; then sleep 30 s and start again. */
module Scheduler {
  import opened Wrappers
  import opened PyDict
  import opened Json
  import opened Clock

  /** Line 62: the sleep after an adhān notification. */
  const Cooldown: nat := 60
  /** Line 69: one tick of the wait for the iqāma time. */
  const WaitTick: nat := 15
  /** Line 71: the sleep between sweeps. */
  const IdleTick: nat := 30

  /** What `main` is given besides the timetable: whether iqāma reminders are
      on, and the minutes from adhān to iqāma (already one less than the
      command-line gap). */
  datatype Config = Config(iqamaEnabled: bool, gapMinutes: int)

  /** Line 66: the time of day `gap` minutes after the prayer, which wraps
      past midnight because only the `.time()` part is kept. */
  function Reminder(prayerMinute: nat, gap: int): (r: nat)
    requires prayerMinute < MinutesPerDay
    ensures r < MinutesPerDay
    ensures (prayerMinute + gap - r) % MinutesPerDay == 0
    ensures 0 <= prayerMinute + gap < MinutesPerDay ==> r == prayerMinute + gap
    ensures MinutesPerDay <= prayerMinute + gap < 2 * MinutesPerDay ==> r == prayerMinute + gap - MinutesPerDay
  {
    (prayerMinute + gap) % MinutesPerDay
  }

  datatype Waited = Waited(clock: Clock, ticks: nat)

  lemma SecondOfDayStep(t: nat, d: nat)
    requires SecondOfDay(t) + d < SecondsPerDay
    ensures SecondOfDay(t + d) == SecondOfDay(t) + d
  {
    var q := t / SecondsPerDay;
    assert t == q * SecondsPerDay + SecondOfDay(t);
    assert t + d == q * SecondsPerDay + (SecondOfDay(t) + d);
  }

  /** Lines 68-69: `while now.time() < reminder: sleep(15)`. It leaves as
      soon as the time of day is at or past the reminder, so a reminder that
      is already past leaves at once, without a tick. */
  function WaitFor(c: Clock, reminder: nat): (r: Waited)
    requires reminder < MinutesPerDay
    ensures SecondOfDay(r.clock.now) >= reminder * 60
    ensures r.clock.now >= c.now + WaitTick * r.ticks
    ensures SecondOfDay(c.now) >= reminder * 60 <==> r.ticks == 0
    ensures r.ticks == 0 ==> r.clock == c
    decreases |c.lag|, reminder * 60 - SecondOfDay(c.now)
  {
    if SecondOfDay(c.now) >= reminder * 60 then Waited(c, 0)
    else
      var next := Sleep(c, WaitTick);
      assert c.lag == [] ==> SecondOfDay(next.now) == SecondOfDay(c.now) + WaitTick by {
        if c.lag == [] { SecondOfDayStep(c.now, WaitTick); }
      }
      var w := WaitFor(next, reminder);
      Waited(w.clock, w.ticks + 1)
  }

  /** With no late wake-ups the wait takes the fewest 15 s ticks that reach
      the reminder, stays within the day, and ends less than one tick after
      the reminder time. */
  lemma {:induction false} WaitIsPrompt(c: Clock, reminder: nat)
    requires reminder < MinutesPerDay
    requires c.lag == []
    requires SecondOfDay(c.now) < reminder * 60
    ensures var w := WaitFor(c, reminder);
      && w.clock.now == c.now + WaitTick * w.ticks
      && SecondOfDay(w.clock.now) == SecondOfDay(c.now) + WaitTick * w.ticks
      && SecondOfDay(w.clock.now) < reminder * 60 + WaitTick
      && w.ticks == (reminder * 60 - SecondOfDay(c.now) + WaitTick - 1) / WaitTick
    decreases reminder * 60 - SecondOfDay(c.now)
  {
    var next := Sleep(c, WaitTick);
    SecondOfDayStep(c.now, WaitTick);
    if SecondOfDay(next.now) < reminder * 60 {
      WaitIsPrompt(next, reminder);
    }
  }

  /** A reminder that wraps past midnight is reached at once from any clock
      whose time of day is still at or after the prayer minute, as it is after
      the cooldown unless that cooldown itself crossed midnight: the time of
      day is already past the reminder, so the wait takes no tick. */
  lemma WrappedReminderIsImmediate(c: Clock, prayerMinute: nat, gap: int)
    requires prayerMinute < MinutesPerDay
    requires prayerMinute + gap >= MinutesPerDay && gap < MinutesPerDay
    requires SecondOfDay(c.now) >= prayerMinute * 60
    ensures WaitFor(c, Reminder(prayerMinute, gap)) == Waited(c, 0)
  {
  }

  /** A prayer at 23:59 with a 14-minute gap: the reminder wraps to 00:13,
      and the cooldown ends at 00:00:00, before it, so with no late wake-ups
      the wait takes 52 ticks and the iqāma is sent at exactly 00:13:00, 14
      minutes after the adhān. */
  lemma MidnightPrayerWaits(prayer: string, c: Clock)
    requires c.lag == [] && SecondOfDay(c.now) == 1439 * 60
    ensures Reminder(1439, 14) == 13
    ensures var f := Fire(prayer, Some(Reminder(1439, 14)), c);
      && f.0.iqamaAt == Some(c.now + 14 * 60)
      && SecondOfDay(f.0.iqamaAt.value) == 13 * 60
  {
    var cooled := Sleep(c, Cooldown);
    var q := c.now / SecondsPerDay;
    assert c.now == q * SecondsPerDay + 1439 * 60;
    assert cooled.now == (q + 1) * SecondsPerDay;
    assert SecondOfDay(cooled.now) == 0;
    WaitIsPrompt(cooled, 13);
    var w := WaitFor(cooled, 13);
    assert w.ticks == 52;
    assert w.clock.now == (q + 1) * SecondsPerDay + 13 * 60;
  }

  /** One adhān notification and, when reminders are on, the iqāma
      notification for the same prayer; each with the clock reading at which
      it was sent. */
  datatype Firing = Firing(prayer: string, adhanAt: nat, iqamaAt: Option<nat>)

  /** The state after walking part of the timetable. `crashed` means a time
      string raised an exception the loop does not catch. */
  datatype Pass = Pass(fired: seq<Firing>, clock: Clock, crashed: bool)

  /** What lines 56-58 make of one timetable value: a falsy value is
      skipped, a truthy value that is not parsable `HH:MM` text makes
      `strptime` raise (TypeError for a non-string, ValueError otherwise), and
      any other value is a minute of the day. `strptime` is a pure function of
      the text, so the value is classified once rather than on every sweep. */
  datatype Slot = Empty | Invalid | At(minute: nat)

  function SlotOf(v: Json): (r: Slot)
    ensures r == Empty <==> !Truthy(v)
    ensures r.At? <==> v.JStr? && Parse(v.s).Some?
    ensures r.At? ==> Some(r.minute) == Parse(v.s) && r.minute < MinutesPerDay
  {
    if !Truthy(v) then Empty
    else if v.JStr? && Parse(v.s).Some? then At(Parse(v.s).value)
    else Invalid
  }

  /** The timetable with each time classified, in the dict's order. */
  type Schedule = seq<(string, Slot)>

  function ScheduleOf(table: Dict<Json>): (r: Schedule)
    ensures |r| == |table|
    ensures forall i :: 0 <= i < |table| ==> r[i] == (table[i].0, SlotOf(table[i].1))
  {
    seq(|table|, i requires 0 <= i < |table| => (table[i].0, SlotOf(table[i].1)))
  }

  /** Line 60: an entry fires when its time equals the minute read at the top
      of the sweep. */
  predicate Fires(slot: Slot, minute: nat)
  {
    slot == At(minute)
  }

  /** Lines 61-70 for one matching entry: the adhān notification now, the
      60 s cooldown, then (when a reminder time is given) the wait for it and
      the iqāma notification. Returns the firing and the clock after it. */
  function Fire(prayer: string, reminder: Option<nat>, c: Clock): (r: (Firing, Clock))
    requires reminder.Some? ==> reminder.value < MinutesPerDay
    ensures r.0.prayer == prayer && r.0.adhanAt == c.now
    ensures r.1.now >= c.now + Cooldown
    ensures r.0.iqamaAt.Some? <==> reminder.Some?
    ensures r.0.iqamaAt.Some? ==>
      && r.0.iqamaAt.value == r.1.now
      && SecondOfDay(r.0.iqamaAt.value) >= reminder.value * 60
  {
    var cooled := Sleep(c, Cooldown);
    if reminder.Some? then
      var w := WaitFor(cooled, reminder.value);
      (Firing(prayer, c.now, Some(w.clock.now)), w.clock)
    else (Firing(prayer, c.now, None), cooled)
  }

  /** The reminder a firing at `minute` waits for, if iqāma reminders are on. */
  function ReminderFor(minute: nat, cfg: Config): (r: Option<nat>)
    requires minute < MinutesPerDay
  {
    if cfg.iqamaEnabled then Some(Reminder(minute, cfg.gapMinutes)) else None
  }

  /** Consecutive firings do not overlap: the next adhān comes at least a
      cooldown after the previous one, and after its iqāma. */
  predicate Spaced(fired: seq<Firing>)
  {
    |fired| <= 1 ||
    (&& fired[0].adhanAt + Cooldown <= fired[1].adhanAt
     && (fired[0].iqamaAt.Some? ==> fired[0].iqamaAt.value <= fired[1].adhanAt)
     && Spaced(fired[1..]))
  }

  /** Lines 55-70: the walk over the timetable's entries, `minute` being the
      minute read at line 54. A firing entry's time equals `minute`, so the
      reminder is computed from `minute`. */
  function Visit(entries: Schedule, minute: nat, cfg: Config, c: Clock): Pass
    requires minute < MinutesPerDay
    decreases |entries|
  {
    if |entries| == 0 then Pass([], c, false)
    else if entries[0].1 == Invalid then Pass([], c, true)
    else if !Fires(entries[0].1, minute) then Visit(entries[1..], minute, cfg, c)
    else
      var f := Fire(entries[0].0, ReminderFor(minute, cfg), c);
      var rest := Visit(entries[1..], minute, cfg, f.1);
      Pass([f.0] + rest.fired, rest.clock, rest.crashed)
  }

  /** Every firing of a walk takes at least the cooldown, the first one is
      sent at once, each has an iqāma notification exactly when reminders are
      on, never before a cooldown after its adhān nor before the reminder
      time of day, and consecutive firings do not overlap. */
  lemma {:induction false} VisitTiming(entries: Schedule, minute: nat, cfg: Config, c: Clock)
    requires minute < MinutesPerDay
    ensures var r := Visit(entries, minute, cfg, c);
      && r.clock.now >= c.now + Cooldown * |r.fired|
      && (|r.fired| > 0 ==> r.fired[0].adhanAt == c.now)
      && (forall k :: 0 <= k < |r.fired| ==> c.now + Cooldown * k <= r.fired[k].adhanAt)
      && (forall k :: 0 <= k < |r.fired| ==> (r.fired[k].iqamaAt.Some? <==> cfg.iqamaEnabled))
      && (forall k :: 0 <= k < |r.fired| && r.fired[k].iqamaAt.Some? ==>
            && r.fired[k].adhanAt + Cooldown <= r.fired[k].iqamaAt.value
            && SecondOfDay(r.fired[k].iqamaAt.value) >= Reminder(minute, cfg.gapMinutes) * 60)
      && Spaced(r.fired)
    decreases |entries|
  {
    if |entries| > 0 && entries[0].1 != Invalid {
      var after := AfterFirst(entries, minute, cfg, c);
      VisitTiming(entries[1..], minute, cfg, after);
      if Fires(entries[0].1, minute) {
        var r := Visit(entries, minute, cfg, c);
        var f := Fire(entries[0].0, ReminderFor(minute, cfg), c);
        var rest := Visit(entries[1..], minute, cfg, f.1);
        assert r.fired == [f.0] + rest.fired;
        assert r.fired[1..] == rest.fired;
        assert forall k :: 1 <= k < |r.fired| ==> r.fired[k] == rest.fired[k - 1];
      }
    }
  }

  /** The clock after the first entry of a non-empty walk. */
  function AfterFirst(entries: Schedule, minute: nat, cfg: Config, c: Clock): Clock
    requires minute < MinutesPerDay && |entries| > 0
  {
    if Fires(entries[0].1, minute) then Fire(entries[0].0, ReminderFor(minute, cfg), c).1 else c
  }

  /** One step of the walk over a first entry that is not invalid: it adds
      a firing when its time matches, and the walk goes on from the clock it
      leaves. */
  lemma VisitShape(entries: Schedule, minute: nat, cfg: Config, c: Clock)
    requires minute < MinutesPerDay && |entries| > 0 && entries[0].1 != Invalid
    ensures var r := Visit(entries, minute, cfg, c);
      var rest := Visit(entries[1..], minute, cfg, AfterFirst(entries, minute, cfg, c));
      && r.crashed == rest.crashed
      && (Fires(entries[0].1, minute) ==>
            |r.fired| == |rest.fired| + 1 && r.fired[0].prayer == entries[0].0 && r.fired[1..] == rest.fired)
      && (!Fires(entries[0].1, minute) ==> r.fired == rest.fired)
  {
  }

  /** A sweep crashes exactly when some time in the table is invalid;
      empty times do not stop it. */
  lemma {:induction false} VisitCrashRule(entries: Schedule, minute: nat, cfg: Config, c: Clock)
    requires minute < MinutesPerDay
    ensures Visit(entries, minute, cfg, c).crashed <==> exists i :: 0 <= i < |entries| && entries[i].1 == Invalid
    decreases |entries|
  {
    if |entries| > 0 && entries[0].1 != Invalid {
      var tail := entries[1..];
      VisitShape(entries, minute, cfg, c);
      VisitCrashRule(tail, minute, cfg, AfterFirst(entries, minute, cfg, c));
      if exists i :: 0 <= i < |entries| && entries[i].1 == Invalid {
        var i :| 0 <= i < |entries| && entries[i].1 == Invalid;
        assert i > 0 && tail[i - 1].1 == Invalid;
      }
      if exists i :: 0 <= i < |tail| && tail[i].1 == Invalid {
        var i :| 0 <= i < |tail| && tail[i].1 == Invalid;
        assert entries[i + 1] == tail[i];
      }
    }
  }

  /** Some entry of the table named `prayer` has a time equal to `minute`. */
  predicate Matching(entries: Schedule, prayer: string, minute: nat)
  {
    exists i :: 0 <= i < |entries| && entries[i].0 == prayer && Fires(entries[i].1, minute)
  }

  lemma MatchingTail(entries: Schedule, prayer: string, minute: nat)
    requires |entries| > 0 && Matching(entries[1..], prayer, minute)
    ensures Matching(entries, prayer, minute)
  {
    var i :| 0 <= i < |entries[1..]| && entries[1..][i].0 == prayer && Fires(entries[1..][i].1, minute);
    assert entries[i + 1] == entries[1..][i];
  }

  /** Every firing of a sweep belongs to a table entry whose time equals the
      minute read at the top of the sweep. */
  lemma {:induction false} VisitFiresOnlyMatches(entries: Schedule, minute: nat, cfg: Config, c: Clock)
    requires minute < MinutesPerDay
    ensures var r := Visit(entries, minute, cfg, c);
      forall k :: 0 <= k < |r.fired| ==> Matching(entries, r.fired[k].prayer, minute)
    decreases |entries|
  {
    if |entries| > 0 && entries[0].1 != Invalid {
      var r := Visit(entries, minute, cfg, c);
      var after := AfterFirst(entries, minute, cfg, c);
      var rest := Visit(entries[1..], minute, cfg, after);
      VisitShape(entries, minute, cfg, c);
      VisitFiresOnlyMatches(entries[1..], minute, cfg, after);
      var shift := if Fires(entries[0].1, minute) then 1 else 0;
      forall k | 0 <= k < |r.fired|
        ensures Matching(entries, r.fired[k].prayer, minute)
      {
        if k < shift {
          assert entries[0].0 == r.fired[0].prayer;
        } else {
          assert r.fired[k] == rest.fired[k - shift];
          MatchingTail(entries, r.fired[k].prayer, minute);
        }
      }
    }
  }

  /** In a sweep that does not crash, every entry whose time equals the
      minute read fires. */
  lemma {:induction false} VisitFiresAllMatches(entries: Schedule, minute: nat, cfg: Config, c: Clock)
    requires minute < MinutesPerDay
    ensures var r := Visit(entries, minute, cfg, c);
      !r.crashed ==> forall i :: 0 <= i < |entries| && Fires(entries[i].1, minute) ==>
        exists k :: 0 <= k < |r.fired| && r.fired[k].prayer == entries[i].0
    decreases |entries|
  {
    if |entries| > 0 && entries[0].1 != Invalid {
      var r := Visit(entries, minute, cfg, c);
      var tail := entries[1..];
      var after := AfterFirst(entries, minute, cfg, c);
      VisitShape(entries, minute, cfg, c);
      VisitFiresAllMatches(tail, minute, cfg, after);
      var rest := Visit(tail, minute, cfg, after);
      var shift := if Fires(entries[0].1, minute) then 1 else 0;
      if !r.crashed {
        forall i | 0 <= i < |entries| && Fires(entries[i].1, minute)
          ensures exists k :: 0 <= k < |r.fired| && r.fired[k].prayer == entries[i].0
        {
          if i == 0 {
            assert r.fired[0].prayer == entries[0].0;
          } else {
            assert tail[i - 1] == entries[i];
            var k :| 0 <= k < |rest.fired| && rest.fired[k].prayer == tail[i - 1].0;
            assert r.fired[k + shift] == rest.fired[k];
          }
        }
      }
    }
  }

  predicate OncePerPrayer(fired: seq<Firing>)
  {
    forall a, b :: 0 <= a < b < |fired| ==> fired[a].prayer != fired[b].prayer
  }

  /** The keys of a dict are distinct, so within one sweep no prayer fires
      twice. */
  lemma {:induction false} VisitFiresEachOnce(entries: Schedule, minute: nat, cfg: Config, c: Clock)
    requires minute < MinutesPerDay
    requires DistinctKeys(entries)
    ensures OncePerPrayer(Visit(entries, minute, cfg, c).fired)
    decreases |entries|
  {
    if |entries| > 0 && entries[0].1 != Invalid {
      var r := Visit(entries, minute, cfg, c);
      var tail := entries[1..];
      assert DistinctKeys(tail) by {
        forall i, j | 0 <= i < j < |tail| ensures tail[i].0 != tail[j].0 {
          assert tail[i] == entries[i + 1] && tail[j] == entries[j + 1];
        }
      }
      var after := AfterFirst(entries, minute, cfg, c);
      VisitShape(entries, minute, cfg, c);
      VisitFiresEachOnce(tail, minute, cfg, after);
      var rest := Visit(tail, minute, cfg, after);
      if Fires(entries[0].1, minute) {
        VisitFiresOnlyMatches(tail, minute, cfg, after);
        forall a, b | 0 <= a < b < |r.fired| ensures r.fired[a].prayer != r.fired[b].prayer {
          assert r.fired[b] == rest.fired[b - 1];
          if a == 0 {
            assert Matching(tail, rest.fired[b - 1].prayer, minute);
            var i :| 0 <= i < |tail| && tail[i].0 == rest.fired[b - 1].prayer && Fires(tail[i].1, minute);
            assert tail[i] == entries[i + 1];
          } else {
            assert r.fired[a] == rest.fired[a - 1];
            assert OncePerPrayer(rest.fired);
          }
        }
      }
    }
  }

  /** One pass of the `while True` body: the clock when it started (read once,
      at line 54), what fired, whether it crashed, and the clock when the next
      pass starts. */
  datatype Sweep = Sweep(start: Clock, fired: seq<Firing>, crashed: bool, clock: Clock)
  {
    function Read(): nat
    {
      start.now
    }
  }

  /** Lines 54-71. The clock is read once; the `HH:MM` text made from it at
      line 54 parses back to the same minute at line 58 (`ParseFormat`), so
      the minute of the day is used directly. */
  function SweepOnce(table: Schedule, cfg: Config, c: Clock): (s: Sweep)
    ensures s.start == c
    ensures !s.crashed ==> s.clock.now >= s.Read() + IdleTick + Cooldown * |s.fired|
  {
    var p := Visit(table, MinuteOfDay(c.now), cfg, c);
    VisitTiming(table, MinuteOfDay(c.now), cfg, c);
    if p.crashed then Sweep(c, p.fired, true, p.clock)
    else Sweep(c, p.fired, false, Sleep(p.clock, IdleTick))
  }

  /** The match rule for a whole sweep, in terms of the minute of the day at
      which the clock was read. */
  lemma SweepMatchRule(table: Schedule, cfg: Config, c: Clock)
    ensures var s := SweepOnce(table, cfg, c);
      && (s.crashed <==> exists i :: 0 <= i < |table| && table[i].1 == Invalid)
      && (forall k :: 0 <= k < |s.fired| ==> Matching(table, s.fired[k].prayer, MinuteOfDay(s.Read())))
      && (!s.crashed ==> forall i :: 0 <= i < |table| && Fires(table[i].1, MinuteOfDay(s.Read())) ==>
            exists k :: 0 <= k < |s.fired| && s.fired[k].prayer == table[i].0)
      && (DistinctKeys(table) ==> OncePerPrayer(s.fired))
  {
    var minute := MinuteOfDay(c.now);
    VisitCrashRule(table, minute, cfg, c);
    VisitFiresOnlyMatches(table, minute, cfg, c);
    VisitFiresAllMatches(table, minute, cfg, c);
    if DistinctKeys(table) {
      VisitFiresEachOnce(table, minute, cfg, c);
    }
  }

  /** Within a sweep the firings do not overlap, each has an iqāma
      notification exactly when reminders are on, and every iqāma
      notification comes a cooldown after its adhān and at or after the
      reminder time of day, never before. */
  lemma SweepTiming(table: Schedule, cfg: Config, c: Clock)
    ensures var s := SweepOnce(table, cfg, c);
      && Spaced(s.fired)
      && (forall k :: 0 <= k < |s.fired| ==> (s.fired[k].iqamaAt.Some? <==> cfg.iqamaEnabled))
      && (forall k :: 0 <= k < |s.fired| && s.fired[k].iqamaAt.Some? ==>
            && s.fired[k].adhanAt + Cooldown <= s.fired[k].iqamaAt.value
            && SecondOfDay(s.fired[k].iqamaAt.value) >= Reminder(MinuteOfDay(s.Read()), cfg.gapMinutes) * 60)
  {
    VisitTiming(table, MinuteOfDay(c.now), cfg, c);
  }

  /** `fuel` passes of the endless loop, stopping early at a crash. */
  function Run(table: Schedule, cfg: Config, c: Clock, fuel: nat): (r: seq<Sweep>)
    ensures |r| <= fuel
    ensures |r| < fuel ==> |r| > 0 && r[|r| - 1].crashed
    ensures forall k :: 0 <= k < |r| - 1 ==> !r[k].crashed
    decreases fuel
  {
    if fuel == 0 then []
    else
      var s := SweepOnce(table, cfg, c);
      if s.crashed then [s]
      else
        var rest := Run(table, cfg, s.clock, fuel - 1);
        assert forall k :: 1 <= k < |[s] + rest| ==> ([s] + rest)[k] == rest[k - 1];
        [s] + rest
  }

  /** Consecutive sweeps: the next starts from the clock the previous one
      left, which is at least 30 s later, and at least 90 s later when the
      previous sweep fired. */
  predicate Advancing(r: seq<Sweep>)
  {
    forall k :: 0 <= k < |r| - 1 ==>
      && r[k + 1].start == r[k].clock
      && r[k].Read() + IdleTick + (if |r[k].fired| > 0 then Cooldown else 0) <= r[k + 1].Read()
  }

  /** A run that has fuel starts with one sweep from the given clock, and
      goes on from the clock that sweep leaves unless it crashed. */
  lemma RunShape(table: Schedule, cfg: Config, c: Clock, fuel: nat)
    requires fuel > 0
    ensures var s := SweepOnce(table, cfg, c);
      Run(table, cfg, c, fuel) == if s.crashed then [s] else [s] + Run(table, cfg, s.clock, fuel - 1)
  {
  }

  /** A run ends in a crash iff it has at least one sweep and the
      timetable holds an entry that cannot be parsed; otherwise it uses up
      its fuel. */
  lemma RunCrashRule(table: Schedule, cfg: Config, c: Clock, fuel: nat)
    ensures var r := Run(table, cfg, c, fuel);
      (|r| > 0 && r[|r| - 1].crashed) <==> fuel > 0 && exists i :: 0 <= i < |table| && table[i].1 == Invalid
  {
    var r := Run(table, cfg, c, fuel);
    if fuel > 0 {
      assert |r| > 0;
      RunIsSweeps(table, cfg, c, fuel);
      var last := r[|r| - 1];
      assert last == SweepOnce(table, cfg, last.start);
      SweepMatchRule(table, cfg, last.start);
    }
  }

  /** Every sweep of `r` is the sweep computed from its start clock. */
  predicate SweptFrom(table: Schedule, cfg: Config, r: seq<Sweep>)
  {
    forall k :: 0 <= k < |r| ==> r[k] == SweepOnce(table, cfg, r[k].start)
  }

  /** The run is a chain of sweeps, each computed from its start clock. */
  lemma {:induction false} RunIsSweeps(table: Schedule, cfg: Config, c: Clock, fuel: nat)
    ensures var r := Run(table, cfg, c, fuel);
      && (|r| > 0 ==> r[0].start == c)
      && SweptFrom(table, cfg, r)
    decreases fuel
  {
    if fuel > 0 {
      var s := SweepOnce(table, cfg, c);
      RunShape(table, cfg, c, fuel);
      if s.crashed {
        SweepsCons(table, cfg, s, []);
        assert [s] + [] == [s];
      } else {
        RunIsSweeps(table, cfg, s.clock, fuel - 1);
        SweepsCons(table, cfg, s, Run(table, cfg, s.clock, fuel - 1));
      }
    }
  }

  lemma SweepsCons(table: Schedule, cfg: Config, s: Sweep, rest: seq<Sweep>)
    requires s == SweepOnce(table, cfg, s.start)
    requires SweptFrom(table, cfg, rest)
    ensures SweptFrom(table, cfg, [s] + rest)
  {
    var r := [s] + rest;
    forall k | 1 <= k < |r| ensures r[k] == SweepOnce(table, cfg, r[k].start) {
      assert r[k] == rest[k - 1];
    }
  }

  /** Each sweep of a run starts from the clock the previous one left. */
  lemma {:induction false} RunIsAdvancing(table: Schedule, cfg: Config, c: Clock, fuel: nat)
    ensures Advancing(Run(table, cfg, c, fuel))
    decreases fuel
  {
    if fuel > 0 {
      var s := SweepOnce(table, cfg, c);
      RunShape(table, cfg, c, fuel);
      if s.crashed {
        AdvancingCons(s, []);
        assert [s] + [] == [s];
      } else {
        var rest := Run(table, cfg, s.clock, fuel - 1);
        RunIsAdvancing(table, cfg, s.clock, fuel - 1);
        if fuel > 1 {
          RunShape(table, cfg, s.clock, fuel - 1);
          var next := SweepOnce(table, cfg, s.clock);
          assert rest[0] == next;
          assert next.start == s.clock;
        }
        AdvancingCons(s, rest);
      }
    }
  }

  lemma AdvancingCons(s: Sweep, rest: seq<Sweep>)
    requires Advancing(rest)
    requires |rest| > 0 ==> rest[0].start == s.clock
    requires |rest| > 0 ==> s.clock.now >= s.Read() + IdleTick + Cooldown * |s.fired|
    ensures Advancing([s] + rest)
  {
    var r := [s] + rest;
    forall k | 0 <= k < |r| - 1
      ensures r[k + 1].start == r[k].clock
      ensures r[k].Read() + IdleTick + (if |r[k].fired| > 0 then Cooldown else 0) <= r[k + 1].Read()
    {
      assert r[k + 1] == rest[k];
      if k > 0 {
        assert r[k] == rest[k - 1];
      }
    }
  }

  /** Along an advancing chain, readings grow by at least 30 s per sweep, and
      by at least 90 s after a sweep that fired. */
  lemma {:induction false} AdvancingSpreads(r: seq<Sweep>, i: nat, j: nat)
    requires Advancing(r)
    requires i < j < |r|
    ensures r[i].Read() + IdleTick * (j - i) <= r[j].Read()
    ensures |r[i].fired| > 0 ==> r[i].Read() + Cooldown + IdleTick <= r[j].Read()
    decreases j - i
  {
    if j > i + 1 {
      AdvancingSpreads(r, i, j - 1);
      assert r[j - 1].Read() + IdleTick <= r[j].Read();
    }
  }

  /** Within each sweep a prayer fires at most once, and any sweep after one
      that fired read a later minute. */
  predicate NoDoubleFiring(r: seq<Sweep>)
  {
    && (forall i :: 0 <= i < |r| ==> OncePerPrayer(r[i].fired))
    && (forall i, j :: 0 <= i < j < |r| && |r[i].fired| > 0 ==> r[i].Read() / 60 < r[j].Read() / 60)
  }

  /** No double firing: the same prayer never fires twice for the same
      minute. */
  lemma NoDoubleFire(table: Schedule, cfg: Config, c: Clock, fuel: nat)
    requires DistinctKeys(table)
    ensures NoDoubleFiring(Run(table, cfg, c, fuel))
  {
    var r := Run(table, cfg, c, fuel);
    RunIsSweeps(table, cfg, c, fuel);
    RunIsAdvancing(table, cfg, c, fuel);
    forall i | 0 <= i < |r|
      ensures OncePerPrayer(r[i].fired)
    {
      assert r[i] == SweepOnce(table, cfg, r[i].start);
      SweepMatchRule(table, cfg, r[i].start);
    }
    forall i, j | 0 <= i < j < |r| && |r[i].fired| > 0
      ensures r[i].Read() / 60 < r[j].Read() / 60
    {
      AdvancingSpreads(r, i, j);
    }
  }
}

=== FILE: wrappers.dfy ===
/** The Some/None datatype used wherever the program may have no value:
    a missing dict key, a string that does not parse, a reminder that is not
    enabled. */
module Wrappers {

  datatype Option<+T> = None | Some(value: T)
}
